=== FILE: README.md ===
# MicroPython PSoC6 front-end: command builder, in Dafny

The front-end (`gui.py`) is a small form. The user picks one of three
actions: device setup, device erase or firmware deploy. They fill in a
board, an optional adapter serial number, a firmware version, a quiet flag,
a KitProg firmware-update flag and a `.hex` path. Pressing "Execute" turns
the form into one command line for `mpy-psoc6.py` and runs it in a new
terminal window.

This project models that path as pure functions over an immutable
`Selection` record. It then proves what the command line means.

The modules:

- `Form`: the form. It covers the actions and the panel each one shows, the
  board lists of the three comboboxes, the state after construction, and
  the edits a user can make, including a cancelled file dialog.
- `Text`: Python's `str.strip()` with its full whitespace set, plus a
  character count.
- `Serial`: `validate_serial`, which upper-cases the serial and then matches
  `^[A-F0-9]+$`. Python's `$` also matches before a final newline; that is
  modelled too. Beside it is the intended check: hexadecimal digits only.
- `Command`: `generate_command`. Its result is a `Result` whose errors are
  `InvalidSerial`, `MissingHexFile` and `ScriptMissing`. These replace the
  message boxes and the `None` return.
- `Shell`: how a POSIX shell cuts a line into arguments (blanks, double
  quotes, backslash). It is the partner definition that gives the
  generated line a meaning.
- `Cli`: an argument reader for `mpy-psoc6.py` (interpreter, script, action
  word, then options in any order). It proves that the shell hands the
  script exactly the options the form describes.
- `Terminal`: the strings `run_subprocess` builds. These are the
  keep-the-window-open wrapper, the argument lists for gnome-terminal and
  for the xterm fallback, and the fallback's quote escaping.
- `Execution`: `execute_command`. It checks for the script, builds the
  command, writes the log header, and produces the terminal argument lists.

The erase and deploy panels are built with `require_board=True`
(gui.py:169 and gui.py:175), so their board lists leave out "Select at
runtime" (gui.py:202-203). All three comboboxes write to the one
`board_var` (gui.py:205), however. A value picked on the setup panel stays
in that variable when the user switches to erase. Picking "Select at
runtime" on the setup panel and then switching to erase therefore produces
an erase with no `-b` flag. `Command.RuntimeBoardSurvivesSwitch` shows the
case.

`generate_command` checks the serial with `validate_serial`. The model
names that check `AsWritten`. Beside it is `HexDigitsOnly`, the check the
error message describes (see "## Findings"). `Command.GenerateWith`,
`Execution.Execute` and the lemmas about them take the check as a
parameter, so each property is proved for the front-end as written and for
the corrected check.

## Model

| member | source | states |
|---|---|---|
| Text.StripSpec | gui.py:321 | the result is the typed text minus a leading and a trailing run of whitespace, and it neither starts nor ends with whitespace |
| Text.StripUnique | gui.py:321 | only one text meets that description, so the stripped serial is determined by the typed one |
| Text.StripIdempotent | gui.py:321 | stripping a stripped serial changes nothing |
| Serial.ValidateSerialAccepts | gui.py:303-310 | for a serial without a final newline, `validate_serial` accepts exactly the empty serial and serials made only of hexadecimal digits (either case) or the ff ligature |
| Serial.ValidateSerialAgrees | gui.py:321-325 | on a stripped serial without the ff ligature, `validate_serial` gives the same answer as "hexadecimal digits only" |
| Serial.LigatureSerialAccepted | gui.py:305 | the one-character serial "ﬀ" survives stripping, passes `validate_serial`, and is not hexadecimal |
| Form.ActionFromName | gui.py:136-144 | a recognised action word is the word of the action it names |
| Form.ActionNameRoundTrip | gui.py:136-144 | every radio-button value reads back as its own action |
| Form.VisiblePanels | gui.py:236-248 | exactly one option panel is shown: the one belonging to the selected action |
| Form.PanelOf | gui.py:236-248 | the panel chosen for an action is among the visible ones |
| Form.SwitchBackRestores | gui.py:236-248 | switching action hides panels without resetting fields, so switching back restores the form exactly |
| Form.BrowseKeepsPathOnCancel | gui.py:228-234 | a cancelled file dialog leaves the form unchanged; a chosen file replaces the hex path and leaves the action and every other field as it was |
| Form.BoardAlwaysOffered | gui.py:197-207 | after any sequence of edits, the board is one of the entries the setup panel offers |
| Form.InitialBoardOffered | gui.py:197-207 | right after construction the board is "CY8CPROTO-062-4343W", the deploy panel's first entry, because that combobox is built last |
| Command.GenerateWith | gui.py:312-343 | under either serial check, the command is refused exactly for a stripped serial the check rejects, or for a deploy with no hex file; it never reports a missing script; otherwise it starts with `python mpy-psoc6.py <action>` |
| Command.GenerateCommandAsWritten | gui.py:312-343 | as written, the command is refused exactly when `validate_serial` rejects the stripped serial, or for a deploy with no hex file; it never reports a missing script; otherwise it starts with `python mpy-psoc6.py <action>` |
| Command.GenerateCommand | gui.py:312-343 | with the corrected check, the command is refused exactly for a stripped serial that is not all hexadecimal digits, or for a deploy with no hex file; it never reports a missing script; otherwise it starts with `python mpy-psoc6.py <action>` |
| Command.BoardFlagFollowsAction | gui.py:317-319 | under either serial check, `-b` follows the action word directly exactly when the board is neither empty nor "Select at runtime"; when present it is `-b "<board>"` |
| Command.HiddenFieldsIgnored | gui.py:330-341 | under either serial check, two forms that agree on the fields of the shown panel give the same result |
| Command.IrrelevantFieldsIgnored | gui.py:330-341 | under either serial check, version and kitprog only matter to a setup, and the hex path only to a deploy |
| Command.EraseAddsNoOptions | gui.py:330-343 | under either serial check, an erase carries nothing after the common flags, the same as a setup with version "latest" and no kitprog update |
| Command.DeployAppendsHexFile | gui.py:336-343 | under either serial check, a deploy with a hex path is the erase command line with ` -f "<path>"` appended last |
| Command.AsWrittenAgrees | gui.py:321-325 | for every serial without the ff ligature, the as-written builder and the corrected builder give the same result |
| Command.LigatureReachesCommand | gui.py:321-325 | the as-written builder turns a setup with serial "ﬀ" into a command passing `-n ﬀ`; the corrected builder refuses it |
| Command.RuntimeBoardSurvivesSwitch | gui.py:317-319 | "Select at runtime" picked on the setup panel survives a switch to erase, so under either serial check that erase gets no `-b` |
| Cli.AcceptedSerialBareSafe | gui.py:321-325 | a non-empty stripped serial that either check accepts holds no character a shell treats specially, so `-n <serial>` stays two arguments |
| Cli.CommandArguments | gui.py:312-343 | under either serial check, for a form whose board and deploy path hold no `"`, `\`, `$` or backquote and whose passed setup version holds no blank or other shell-special character, a shell cuts the command into exactly the words the form calls for, in order: script and action, `-b` and board, `-n` and serial, `-q`, then `-v` and version and `--kitprog-fw-update` (setup) or `-f` and path (deploy) |
| Cli.CommandMeaning | gui.py:312-343 | under either serial check and for the same forms as above, the script receives the form's action, and its board, serial, quiet flag, version, kitprog flag and hex path exactly when the code means to pass them |
| Cli.BlankVersionSplits | gui.py:332-335 | for a setup without the kitprog flag, whose board holds no `"`, `\`, `$` or backquote and whose version is two shell-safe words `<a> <b>` with `<a>` not "latest", the version reaches the script as `<a>` followed by a stray argument `<b>` |
| Terminal.KeepOpenRoundTrip | gui.py:368-369 | the wrapped line is the command followed by `; read -p "<prompt>"`: unwrapping gives back the command, and every line of that shape wraps exactly one command |
| Terminal.EscapeQuotes | gui.py:380 | escaping adds one character per double quote, and every double quote in the result is preceded by a backslash |
| Terminal.EscapeQuotesRoundTrip | gui.py:380 | dropping the backslash in front of each quote gives back the original text, so no other character changes |
| Terminal.ScanEscaped | gui.py:380-381 | for text without backslashes, inside double quotes a shell reads the escaped text back as the original text |
| Terminal.XtermRunsSameScript | gui.py:373-381 | the xterm fallback hands bash the same `-c` script as gnome-terminal |
| Execution.LogHeaderRoundTrip | gui.py:354-356 | the log header shows exactly the command, and every header shows one command |
| Execution.Repeat | gui.py:356 | `c * n` is `n` characters, each of them `c`; the rule under the header is sixty `=` |
| Execution.Execute | gui.py:345-360 | with the check as written (the front-end) or the corrected one, nothing runs without the script or when the form is refused, with the builder's reason; otherwise the command is non-empty, is shown in the log, and is handed to both terminals |
| Execution.ExecuteRunsIntended | gui.py:345-381 | under either serial check, for a form whose texts need no shell quoting, both terminals run the wrapped command, and the script receives exactly the options the form describes |
| Execution.LigatureLaunched | gui.py:345-360 | with the check as written, a setup with serial "ﬀ" launches a command passing `-n ﬀ`; with the corrected check the press is refused |

## Left out

- Widget construction, styling, layout, the header link (`webbrowser`), and the log widget itself. The log is modelled as the header text that `execute_command` writes.
- `messagebox`: each error dialog becomes an `Err` value. The dialog texts are not modelled.
- `filedialog.askopenfilename` is a foreign UI call. The name it returns is a parameter of the `BrowseHexFile` edit; an empty name stands for a cancelled dialog.
- `validate_script_exists` checks the filesystem with `os.path.exists`. Its answer is the `scriptExists` parameter of `Execution.Execute`.
- `subprocess.Popen`, the `FileNotFoundError` fallback from gnome-terminal to xterm, and the log messages after a launch are process spawning and depend on the environment. Both argument lists are computed; which terminal opens is not modelled.
- The `threading.Thread` dispatch has no logic of its own.
- Python's regex engine: `^[A-F0-9]+$` is stated directly as a predicate over characters, including `$` matching before a final newline.
- `str.upper()` is modelled for ASCII letters and for the ligature U+FB00 ("ﬀ" to "FF") only. No other character upper-cases to text made only of 0-9 and A-F, so the outcome of the serial check is unaffected.
- The `else` case of `update_options_visibility` (an unknown action shows no panel) cannot happen: actions are a datatype, and the radio buttons only store the three action words.
- `generate_command` appends `-b` before it checks the serial. A failed check discards the partial command, so the model checks first; the results are the same.
- Cli.CommandArguments: holds only for forms whose board and deploy path contain no `"`, `\`, `$` or backquote, and whose version (for a setup that passes one) contains no shell-special character. The code puts these texts into the line without escaping, so a shell would alter other values. For example, a version with a blank in it becomes two arguments (`Cli.BlankVersionSplits`).
- Cli.CommandMeaning: has the same restriction as `Cli.CommandArguments`, for the same reason.
- Cli.BlankVersionSplits: covers only two shell-safe words whose first word `<a>` is not "latest", without the kitprog flag, and with a board that holds no `"`, `\`, `$` or backquote. For "latest 2" the line still carries `-v latest 2`, but the lemma's comparison form (the same setup with version "latest") passes no `-v`, so that case is not stated. Other blank-containing versions fare worse: `1 2 3` gives two stray arguments, and `1 2;rm` ends the command at the `;`.
- Cli.ParseArgv: stands in for the option parser of `mpy-psoc6.py`, which is not part of this model. It takes whatever argument follows `-v` or `-f` as that option's value, so `Cli.CommandMeaning` counts an option-like value (a version `-q`, a path `-x.hex`) as received verbatim. A parser that rejects values starting with `-` would refuse such forms instead.
- Terminal.ScanEscaped: holds only for text without backslashes. The fallback escapes double quotes only, so a backslash already in the text would escape the next character.
- Terminal.XtermRunsSameScript: holds only for commands without a backslash, because the fallback escapes double quotes only. It also assumes that xterm reads its single `-e` argument as a shell command line. Shell expansions (`$`, backquote, globbing) are not modelled.
- Execution.ExecuteRunsIntended: inherits the restrictions of Cli.CommandMeaning and Terminal.XtermRunsSameScript. `Shell.Split` treats `;` as an ordinary character and a newline as a blank, and it is applied to the command, not to the wrapped line bash receives. That bash runs the part before the wrapper's `;` as one command is therefore not proved. It holds for the forms the lemma covers, because bare words there contain no `;` or newline and the board and path are inside double quotes.

## Findings

| source | as written | input that shows it | evidently intended | confidence | as-written member | corrected member |
|---|---|---|---|---|---|---|
| gui.py:305 | `validate_serial` upper-cases the serial before matching `^[A-F0-9]+$` | the serial "ﬀ" (U+FB00): `upper()` gives "FF", so it passes, and `-n ﬀ` reaches the script | accept only the characters 0-9, A-F and a-f, as the error message says | not executed | Serial.ValidateSerial, Command.GenerateCommandAsWritten, Execution.Execute with `AsWritten`; shown by Serial.LigatureSerialAccepted, Command.LigatureReachesCommand and Execution.LigatureLaunched | Serial.IsHexSerial, Command.GenerateCommand, Execution.Execute with `HexDigitsOnly`; related by Serial.ValidateSerialAgrees and Command.AsWrittenAgrees |

=== FILE: cli.dfy ===
/** What a generated command line means to the device script: the
    argument list a shell makes of it, read by a reference reader of the
    script's options `<action> [-b <board>] [-n <serial>] [-q]
    [-v <version>] [--kitprog-fw-update] [-f <path>]`. */
module Cli {
  import opened Wrappers
  import opened Text
  import opened Serial
  import opened Form
  import opened Command
  import opened Shell

  /** The options a script invocation carries. */
  datatype Invocation = Invocation(
    action: Action,
    board: Option<string>,
    serial: Option<string>,
    quiet: bool,
    version: Option<string>,
    kitprog: bool,
    hexFile: Option<string>)

  function NoOptions(a: Action): Invocation {
    Invocation(a, None, None, false, None, false, None)
  }

  /** Reads an argument list: interpreter, script, action word, then
      options in any order, each valued option taking the next argument
      and a later occurrence overriding an earlier one. */
  function ParseArgv(args: seq<string>): Option<Invocation> {
    if |args| < 3 || args[0] != "python" || args[1] != "mpy-psoc6.py" then None
    else
      match ActionFromName(args[2])
      case None => None
      case Some(a) => ParseOptions(args[3..], NoOptions(a))
  }

  function ParseOptions(args: seq<string>, inv: Invocation): Option<Invocation>
    decreases |args|
  {
    if args == [] then Some(inv)
    else if args[0] == "-q" then ParseOptions(args[1..], inv.(quiet := true))
    else if args[0] == "--kitprog-fw-update" then ParseOptions(args[1..], inv.(kitprog := true))
    else if |args| < 2 then None
    else if args[0] == "-b" then ParseOptions(args[2..], inv.(board := Some(args[1])))
    else if args[0] == "-n" then ParseOptions(args[2..], inv.(serial := Some(args[1])))
    else if args[0] == "-v" then ParseOptions(args[2..], inv.(version := Some(args[1])))
    else if args[0] == "-f" then ParseOptions(args[2..], inv.(hexFile := Some(args[1])))
    else None
  }

  /** The invocation a selection asks for, field by field: the board unless
      none is given, the stripped serial unless empty, the quiet flag, the
      version and kitprog flag of a setup, the hex file of a deploy. */
  function Intended(sel: Selection): Invocation {
    var serial := Strip(sel.serial);
    Invocation(
      sel.action,
      if BoardGiven(sel.board) then Some(sel.board) else None,
      if serial != "" then Some(serial) else None,
      sel.quiet,
      if sel.action == DeviceSetup && VersionGiven(sel.version) then Some(sel.version) else None,
      sel.action == DeviceSetup && sel.kitprog,
      if sel.action == FirmwareDeploy then Some(sel.hexFile) else None)
  }

  /** Field values a shell passes through unchanged in the places the
      command puts them: the board and a deploy's hex file in double
      quotes, a setup's version bare. */
  predicate ShellSafe(sel: Selection) {
    && QuotedSafe(sel.board)
    && (sel.action == FirmwareDeploy ==> QuotedSafe(sel.hexFile))
    && (sel.action == DeviceSetup && VersionGiven(sel.version) ==> BareSafe(sel.version))
  }

  // The command line as words, one list per flag group.

  function BaseWords(a: Action): seq<Word> {
    [Bare("python"), Bare("mpy-psoc6.py"), Bare(ActionName(a))]
  }

  function BoardWords(board: string): seq<Word> {
    if BoardGiven(board) then [Bare("-b"), Quoted(board)] else []
  }

  function SerialWords(serial: string): seq<Word> {
    if serial != "" then [Bare("-n"), Bare(serial)] else []
  }

  function QuietWords(quiet: bool): seq<Word> {
    if quiet then [Bare("-q")] else []
  }

  function VersionWords(version: string): seq<Word> {
    if VersionGiven(version) then [Bare("-v"), Bare(version)] else []
  }

  function KitprogWords(kitprog: bool): seq<Word> {
    if kitprog then [Bare("--kitprog-fw-update")] else []
  }

  function HexFileWords(hexFile: string): seq<Word> {
    [Bare("-f"), Quoted(hexFile)]
  }

  function ActionWords(sel: Selection): seq<Word> {
    match sel.action
    case DeviceSetup => VersionWords(sel.version) + KitprogWords(sel.kitprog)
    case DeviceErase => []
    case FirmwareDeploy => HexFileWords(sel.hexFile)
  }

  function Words(sel: Selection): seq<Word> {
    BaseWords(sel.action) + BoardWords(sel.board) + SerialWords(Strip(sel.serial))
    + QuietWords(sel.quiet) + ActionWords(sel)
  }

  // The words spell out the generated command line.

  lemma Join3(a: string, b: string, c: string)
    ensures a + (b + c) == a + b + c
  {
  }

  lemma BaseSpaced(a: Action)
    ensures Spaced(BaseWords(a)) == " " + Base(a)
  {
    var ws := BaseWords(a);
    var name := ActionName(a);
    assert ws[1..][1..][1..] == [];
    assert Spaced(ws[1..][1..]) == " " + name + "";
    assert Spaced(ws[1..]) == " " + "mpy-psoc6.py" + (" " + name + "");
    assert Spaced(ws) == " " + "python" + (" " + "mpy-psoc6.py" + (" " + name + ""));
    LauncherWords();
    SpacedBase(" ", "python", "mpy-psoc6.py", name);
  }

  lemma LauncherWords()
    ensures "python" + " " + "mpy-psoc6.py" + " " == Launcher
  {
  }

  lemma SpacedBase(sp: string, p: string, m: string, n: string)
    ensures sp + p + (sp + m + (sp + n + "")) == sp + (p + sp + m + sp + n)
  {
  }

  lemma BoardSpaced(board: string)
    ensures Spaced(BoardWords(board)) == BoardArg(board)
  {
    if BoardGiven(board) {
      var ws := BoardWords(board);
      assert ws[1..][1..] == [];
      var q := "\"" + board + "\"";
      assert Spaced(ws[1..]) == " " + q + "";
      assert Spaced(ws) == " " + "-b" + (" " + q + "");
      assert " " + "-b" + (" " + q + "") == " -b " + q;
      Join3(" -b ", "\"" + board, "\"");
      Join3(" -b ", "\"", board);
      assert " -b " + "\"" == " -b \"";
    }
  }

  lemma SerialSpaced(serial: string)
    ensures Spaced(SerialWords(serial)) == SerialArg(serial)
  {
    if serial != "" {
      var ws := SerialWords(serial);
      assert ws[1..][1..] == [];
      assert Spaced(ws[1..]) == " " + serial + "";
      assert Spaced(ws) == " " + "-n" + (" " + serial + "");
      assert " " + "-n" + (" " + serial + "") == " -n " + serial;
    }
  }

  lemma QuietSpaced(quiet: bool)
    ensures Spaced(QuietWords(quiet)) == QuietArg(quiet)
  {
    if quiet {
      assert QuietWords(quiet)[1..] == [];
      assert " " + "-q" + "" == " -q";
    }
  }

  lemma VersionSpaced(version: string)
    ensures Spaced(VersionWords(version)) == (if VersionGiven(version) then " -v " + version else "")
  {
    if VersionGiven(version) {
      var v := VersionWords(version);
      assert v[1..][1..] == [];
      assert Spaced(v[1..]) == " " + version + "";
      assert Spaced(v) == " " + "-v" + (" " + version + "");
      assert " " + "-v" + (" " + version + "") == " -v " + version;
    }
  }

  lemma KitprogSpaced(kitprog: bool)
    ensures Spaced(KitprogWords(kitprog)) == (if kitprog then " --kitprog-fw-update" else "")
  {
    if kitprog {
      assert KitprogWords(kitprog)[1..] == [];
      assert " " + "--kitprog-fw-update" + "" == " --kitprog-fw-update";
    }
  }

  lemma SetupSpaced(version: string, kitprog: bool)
    ensures Spaced(VersionWords(version) + KitprogWords(kitprog)) == SetupArgs(version, kitprog)
  {
    SpacedAppend(VersionWords(version), KitprogWords(kitprog));
    VersionSpaced(version);
    KitprogSpaced(kitprog);
  }

  lemma HexFileSpaced(hexFile: string)
    ensures Spaced(HexFileWords(hexFile)) == HexFileArg(hexFile)
  {
    var ws := HexFileWords(hexFile);
    assert ws[1..][1..] == [];
    var q := "\"" + hexFile + "\"";
    assert Spaced(ws[1..]) == " " + q + "";
    assert Spaced(ws) == " " + "-f" + (" " + q + "");
    assert " " + "-f" + (" " + q + "") == " -f " + q;
    Join3(" -f ", "\"" + hexFile, "\"");
    Join3(" -f ", "\"", hexFile);
    assert " -f " + "\"" == " -f \"";
  }

  lemma ActionSpaced(sel: Selection)
    ensures Spaced(ActionWords(sel)) == ActionArgs(sel)
  {
    match sel.action
    case DeviceSetup => SetupSpaced(sel.version, sel.kitprog);
    case DeviceErase =>
    case FirmwareDeploy => HexFileSpaced(sel.hexFile);
  }

  /** The generated command, after the space that `Spaced` puts in front
      of every word, is exactly the word list of the selection. */
  lemma CommandSpaced(check: SerialCheck, sel: Selection)
    requires GenerateWith(check, sel).Ok?
    ensures " " + GenerateWith(check, sel).value == Spaced(Words(sel))
  {
    var b, n, q, t := BoardWords(sel.board), SerialWords(Strip(sel.serial)), QuietWords(sel.quiet), ActionWords(sel);
    var base := BaseWords(sel.action);
    SpacedAppend(base, b);
    SpacedAppend(base + b, n);
    SpacedAppend(base + b + n, q);
    SpacedAppend(base + b + n + q, t);
    BaseSpaced(sel.action);
    BoardSpaced(sel.board);
    SerialSpaced(Strip(sel.serial));
    QuietSpaced(sel.quiet);
    ActionSpaced(sel);
    CommandParts(check, sel);
    CommonJoin(" ", Base(sel.action), BoardArg(sel.board), SerialArg(Strip(sel.serial)), QuietArg(sel.quiet), ActionArgs(sel));
  }

  lemma CommonJoin(sp: string, base: string, b: string, n: string, q: string, t: string)
    ensures sp + (base + (b + n + q) + t) == sp + base + b + n + q + t
  {
  }

  // A shell hands the script exactly the words' texts.

  lemma TextsOfOne(w: Word)
    ensures Texts([w]) == [w.text]
  {
    assert [w][1..] == [];
  }

  lemma TextsOfPair(w1: Word, w2: Word)
    ensures Texts([w1, w2]) == [w1.text, w2.text]
  {
    assert [w1, w2][1..] == [w2];
    TextsOfOne(w2);
  }

  lemma TextsOfThree(w1: Word, w2: Word, w3: Word)
    ensures Texts([w1, w2, w3]) == [w1.text, w2.text, w3.text]
  {
    assert [w1, w2, w3][1..] == [w2, w3];
    TextsOfPair(w2, w3);
  }

  lemma RegroupArgs(a: seq<string>, b: seq<string>, c: seq<string>, d: seq<string>, e: seq<string>)
    ensures a + b + c + d + e == a + (b + (c + (d + e)))
  {
  }

  predicate AllSafe(ws: seq<Word>) {
    forall k :: 0 <= k < |ws| ==> SafeWord(ws[k])
  }

  lemma AllSafeAppend(a: seq<Word>, b: seq<Word>)
    requires AllSafe(a) && AllSafe(b)
    ensures AllSafe(a + b)
  {
    forall k | 0 <= k < |a + b| ensures SafeWord((a + b)[k]) {
      if k >= |a| { assert (a + b)[k] == b[k - |a|]; }
    }
  }

  /** A serial that either check accepts, once stripped, is bare text a
      shell passes on unchanged: hexadecimal digits, plus the ff ligature
      under the check as written. */
  lemma AcceptedSerialBareSafe(check: SerialCheck, raw: string)
    requires Strip(raw) != "" && Accepts(check, Strip(raw))
    ensures BareSafe(Strip(raw))
  {
    var serial := Strip(raw);
    if check == AsWritten {
      StrippedHasNoFinalNewline(raw);
      ValidateSerialAccepts(serial);
    }
    forall k | 0 <= k < |serial| ensures !IsShellSpecial(serial[k]) {
      assert IsHexDigit(serial[k]) || serial[k] == FfLigature;
    }
  }

  lemma FlagWordsSafe()
    ensures BareSafe("python") && BareSafe("mpy-psoc6.py")
    ensures BareSafe("device-setup") && BareSafe("device-erase") && BareSafe("firmware-deploy")
    ensures BareSafe("-b") && BareSafe("-n") && BareSafe("-q") && BareSafe("-v") && BareSafe("-f")
    ensures BareSafe("--kitprog-fw-update")
  {
    ScriptWordsSafe();
    ActionWordsSafeNames();
    KitprogWordSafe();
  }

  lemma ScriptWordsSafe()
    ensures BareSafe("python") && BareSafe("mpy-psoc6.py")
  {
  }

  lemma ActionWordsSafeNames()
    ensures BareSafe("device-setup") && BareSafe("device-erase") && BareSafe("firmware-deploy")
  {
  }

  lemma KitprogWordSafe()
    ensures BareSafe("--kitprog-fw-update")
  {
  }

  lemma CommonWordsSafe(sel: Selection)
    requires Strip(sel.serial) == "" || BareSafe(Strip(sel.serial))
    requires QuotedSafe(sel.board)
    ensures AllSafe(BaseWords(sel.action))
    ensures AllSafe(BoardWords(sel.board))
    ensures AllSafe(SerialWords(Strip(sel.serial)))
    ensures AllSafe(QuietWords(sel.quiet))
  {
    BaseWordsSafe(sel.action);
    BoardWordsSafe(sel.board);
    SerialWordsSafe(Strip(sel.serial));
    QuietWordsSafe(sel.quiet);
  }

  lemma BaseWordsSafe(a: Action)
    ensures AllSafe(BaseWords(a))
  {
    ScriptWordsSafe();
    ActionWordsSafeNames();
    var ws := BaseWords(a);
    assert SafeWord(ws[0]) && SafeWord(ws[1]) && SafeWord(ws[2]);
  }

  lemma BoardWordsSafe(board: string)
    requires QuotedSafe(board)
    ensures AllSafe(BoardWords(board))
  {
    FlagWordsSafe();
  }

  lemma SerialWordsSafe(serial: string)
    requires serial == "" || BareSafe(serial)
    ensures AllSafe(SerialWords(serial))
  {
    FlagWordsSafe();
  }

  lemma QuietWordsSafe(quiet: bool)
    ensures AllSafe(QuietWords(quiet))
  {
    FlagWordsSafe();
  }

  lemma ActionWordsSafe(sel: Selection)
    requires ShellSafe(sel)
    ensures AllSafe(ActionWords(sel))
  {
    FlagWordsSafe();
    if sel.action == DeviceSetup {
      AllSafeAppend(VersionWords(sel.version), KitprogWords(sel.kitprog));
    }
  }

  lemma WordsSafe(check: SerialCheck, sel: Selection)
    requires GenerateWith(check, sel).Ok? && ShellSafe(sel)
    ensures AllSafe(Words(sel))
  {
    if Strip(sel.serial) != "" {
      AcceptedSerialBareSafe(check, sel.serial);
    }
    CommonWordsSafe(sel);
    ActionWordsSafe(sel);
    var base, b, n, q := BaseWords(sel.action), BoardWords(sel.board), SerialWords(Strip(sel.serial)), QuietWords(sel.quiet);
    var t := ActionWords(sel);
    AllSafeAppend(base, b);
    AllSafeAppend(base + b, n);
    AllSafeAppend(base + b + n, q);
    AllSafeAppend(base + b + n + q, t);
  }

  /** The argument list a shell makes of a generated command, for field
      values it passes through unchanged: interpreter, script and action
      word, then `-b <board>`, `-n <serial>`, `-q`, then a setup's
      `-v <version>` and `--kitprog-fw-update` or a deploy's `-f <path>`,
      each group present exactly when the selection asks for it. */
  lemma CommandArguments(check: SerialCheck, sel: Selection)
    requires GenerateWith(check, sel).Ok? && ShellSafe(sel)
    ensures Split(GenerateWith(check, sel).value) == Texts(Words(sel))
  {
    var c := GenerateWith(check, sel).value;
    CommandSpaced(check, sel);
    WordsSafe(check, sel);
    SplitSpaced(Words(sel));
    var s := " " + c;
    assert s[0] == ' ' && s[1..] == c;
  }

  // The reference reader recovers the selection's intent.

  lemma ParseBoard(board: string, rest: seq<string>, inv: Invocation)
    ensures ParseOptions(Texts(BoardWords(board)) + rest, inv)
         == ParseOptions(rest, if BoardGiven(board) then inv.(board := Some(board)) else inv)
  {
    if BoardGiven(board) {
      TextsOfPair(BoardWords(board)[0], BoardWords(board)[1]);
      var args := Texts(BoardWords(board)) + rest;
      assert args[0] == "-b" && args[1] == board && args[2..] == rest;
    } else {
      assert Texts(BoardWords(board)) + rest == rest;
    }
  }

  lemma ParseSerial(serial: string, rest: seq<string>, inv: Invocation)
    ensures ParseOptions(Texts(SerialWords(serial)) + rest, inv)
         == ParseOptions(rest, if serial != "" then inv.(serial := Some(serial)) else inv)
  {
    if serial != "" {
      TextsOfPair(SerialWords(serial)[0], SerialWords(serial)[1]);
      var args := Texts(SerialWords(serial)) + rest;
      assert args[0] == "-n" && args[1] == serial && args[2..] == rest;
    } else {
      assert Texts(SerialWords(serial)) + rest == rest;
    }
  }

  lemma ParseQuiet(quiet: bool, rest: seq<string>, inv: Invocation)
    ensures ParseOptions(Texts(QuietWords(quiet)) + rest, inv)
         == ParseOptions(rest, if quiet then inv.(quiet := true) else inv)
  {
    if quiet {
      TextsOfOne(Bare("-q"));
      var args := Texts(QuietWords(quiet)) + rest;
      assert args[0] == "-q" && args[1..] == rest;
    } else {
      assert Texts(QuietWords(quiet)) + rest == rest;
    }
  }

  lemma ParseVersion(version: string, rest: seq<string>, inv: Invocation)
    ensures ParseOptions(Texts(VersionWords(version)) + rest, inv)
         == ParseOptions(rest, if VersionGiven(version) then inv.(version := Some(version)) else inv)
  {
    if VersionGiven(version) {
      TextsOfPair(VersionWords(version)[0], VersionWords(version)[1]);
      var args := Texts(VersionWords(version)) + rest;
      assert args[0] == "-v" && args[1] == version && args[2..] == rest;
    } else {
      assert Texts(VersionWords(version)) + rest == rest;
    }
  }

  lemma ParseKitprog(kitprog: bool, inv: Invocation)
    ensures ParseOptions(Texts(KitprogWords(kitprog)), inv)
         == Some(if kitprog then inv.(kitprog := true) else inv)
  {
    if kitprog {
      TextsOfOne(Bare("--kitprog-fw-update"));
      var args := Texts(KitprogWords(kitprog));
      assert args[0] == "--kitprog-fw-update" && args[1..] == [];
    }
  }

  lemma ParseHexFile(hexFile: string, inv: Invocation)
    ensures ParseOptions(Texts(HexFileWords(hexFile)), inv) == Some(inv.(hexFile := Some(hexFile)))
  {
    TextsOfPair(Bare("-f"), Quoted(hexFile));
    var args := Texts(HexFileWords(hexFile));
    assert args[0] == "-f" && args[1] == hexFile && args[2..] == [];
  }

  lemma ParseAction(sel: Selection, inv: Invocation)
    requires inv.version == None && !inv.kitprog && inv.hexFile == None
    ensures ParseOptions(Texts(ActionWords(sel)), inv)
         == Some(inv.(version := Intended(sel).version, kitprog := Intended(sel).kitprog,
                      hexFile := Intended(sel).hexFile))
  {
    match sel.action
    case DeviceSetup =>
      var v, k := VersionWords(sel.version), KitprogWords(sel.kitprog);
      SpacedAppend(v, k);
      ParseVersion(sel.version, Texts(k), inv);
      var inv' := if VersionGiven(sel.version) then inv.(version := Some(sel.version)) else inv;
      ParseKitprog(sel.kitprog, inv');
    case DeviceErase =>
    case FirmwareDeploy =>
      ParseHexFile(sel.hexFile, inv);
  }

  /** The argument list of a selection's words, in flag groups. */
  lemma WordTexts(sel: Selection)
    ensures Texts(Words(sel))
         == ["python", "mpy-psoc6.py", ActionName(sel.action)]
            + (Texts(BoardWords(sel.board)) + (Texts(SerialWords(Strip(sel.serial)))
            + (Texts(QuietWords(sel.quiet)) + Texts(ActionWords(sel)))))
  {
    var base, b, n, q := BaseWords(sel.action), BoardWords(sel.board), SerialWords(Strip(sel.serial)), QuietWords(sel.quiet);
    var t := ActionWords(sel);
    SpacedAppend(base, b);
    SpacedAppend(base + b, n);
    SpacedAppend(base + b + n, q);
    SpacedAppend(base + b + n + q, t);
    TextsOfThree(Bare("python"), Bare("mpy-psoc6.py"), Bare(ActionName(sel.action)));
    RegroupArgs(Texts(base), Texts(b), Texts(n), Texts(q), Texts(t));
  }

  /** Reading the options of a selection's words, starting from none. */
  lemma ParseSelectionOptions(sel: Selection)
    ensures ParseOptions(Texts(BoardWords(sel.board)) + (Texts(SerialWords(Strip(sel.serial)))
              + (Texts(QuietWords(sel.quiet)) + Texts(ActionWords(sel)))), NoOptions(sel.action))
         == Some(Intended(sel))
  {
    var serial := Strip(sel.serial);
    var tn, tq, tt := Texts(SerialWords(serial)), Texts(QuietWords(sel.quiet)), Texts(ActionWords(sel));
    var inv0 := NoOptions(sel.action);
    ParseBoard(sel.board, tn + (tq + tt), inv0);
    var inv1 := if BoardGiven(sel.board) then inv0.(board := Some(sel.board)) else inv0;
    ParseSerial(serial, tq + tt, inv1);
    var inv2 := if serial != "" then inv1.(serial := Some(serial)) else inv1;
    ParseQuiet(sel.quiet, tt, inv2);
    var inv3 := if sel.quiet then inv2.(quiet := true) else inv2;
    ParseAction(sel, inv3);
  }

  /** What a generated command means: read back by the reference reader,
      the argument list a shell makes of it is exactly the invocation the
      selection asks for. */
  lemma CommandMeaning(check: SerialCheck, sel: Selection)
    requires GenerateWith(check, sel).Ok? && ShellSafe(sel)
    ensures ParseArgv(Split(GenerateWith(check, sel).value)) == Some(Intended(sel))
  {
    CommandArguments(check, sel);
    WordTexts(sel);
    var args := Texts(Words(sel));
    var rest := Texts(BoardWords(sel.board)) + (Texts(SerialWords(Strip(sel.serial)))
              + (Texts(QuietWords(sel.quiet)) + Texts(ActionWords(sel))));
    assert args[0] == "python" && args[1] == "mpy-psoc6.py" && args[2] == ActionName(sel.action);
    assert args[3..] == rest;
    ActionNameRoundTrip(sel.action);
    ParseSelectionOptions(sel);
  }

  // A version with a blank in it is cut in two.

  /** The version is put into the line bare, so a version `<a> <b>` with a
      blank reaches the script as the version `<a>` followed by a stray
      argument `<b>`: exactly the arguments of the same setup with version
      `<a>`, plus `<b>`. */
  lemma BlankVersionSplits(check: SerialCheck, sel: Selection, a: string, b: string)
    requires GenerateWith(check, sel).Ok?
    requires sel.action == DeviceSetup && !sel.kitprog && sel.version == a + " " + b
    requires BareSafe(a) && BareSafe(b) && VersionGiven(a) && QuotedSafe(sel.board)
    ensures Split(GenerateWith(check, sel).value) == Texts(Words(sel.(version := a))) + [b]
  {
    var short := sel.(version := a);
    var c := GenerateWith(check, sel).value;
    var ws := Words(short) + [Bare(b)];
    BlankVersionLine(check, sel, a, b);
    WordsSafe(check, short);
    assert AllSafe([Bare(b)]);
    AllSafeAppend(Words(short), [Bare(b)]);
    SplitSpaced(ws);
    SpacedAppend(Words(short), [Bare(b)]);
    TextsOfOne(Bare(b));
    var s := " " + c;
    assert s[0] == ' ' && s[1..] == c;
  }

  /** The line with version `<a> <b>` is the line with version `<a>`,
      then a space and `<b>`; as words, one bare word more. */
  lemma BlankVersionLine(check: SerialCheck, sel: Selection, a: string, b: string)
    requires GenerateWith(check, sel).Ok?
    requires sel.action == DeviceSetup && !sel.kitprog && sel.version == a + " " + b
    requires VersionGiven(a)
    ensures GenerateWith(check, sel.(version := a)).Ok?
    ensures " " + GenerateWith(check, sel).value == Spaced(Words(sel.(version := a))) + Spaced([Bare(b)])
  {
    var short := sel.(version := a);
    BlankVersionAppends(check, sel, a, b);
    CommandSpaced(check, short);
    SpacedOne(Bare(b));
    Join(" ", GenerateWith(check, short).value, b);
  }

  lemma SpacedOne(w: Word)
    ensures Spaced([w]) == " " + Show(w) + ""
  {
    assert [w][1..] == [];
  }

  lemma Join(sp: string, x: string, y: string)
    ensures sp + (x + sp + y) == (sp + x) + (sp + y + "")
  {
  }

  lemma BlankVersionAppends(check: SerialCheck, sel: Selection, a: string, b: string)
    requires GenerateWith(check, sel).Ok?
    requires sel.action == DeviceSetup && !sel.kitprog && sel.version == a + " " + b
    requires VersionGiven(a)
    ensures GenerateWith(check, sel.(version := a)).Ok?
    ensures GenerateWith(check, sel).value == GenerateWith(check, sel.(version := a)).value + " " + b
  {
    var short := sel.(version := a);
    SameSerialSameVerdict(check, sel, short);
    CommandParts(check, sel);
    CommandParts(check, short);
    BlankVersionArgs(sel, a, b);
    AppendWord(Base(sel.action) + CommonArgs(sel), " -v " + a, b);
  }

  lemma BlankVersionArgs(sel: Selection, a: string, b: string)
    requires sel.action == DeviceSetup && !sel.kitprog && sel.version == a + " " + b
    requires VersionGiven(a)
    ensures Base(sel.action) == Base(sel.(version := a).action)
    ensures CommonArgs(sel.(version := a)) == CommonArgs(sel)
    ensures ActionArgs(sel) == " -v " + a + " " + b + ""
    ensures ActionArgs(sel.(version := a)) == " -v " + a + ""
  {
    BlankNotLatest(sel.version, |a|);
  }

  lemma AppendWord(p: string, x: string, b: string)
    ensures p + (x + " " + b + "") == p + (x + "") + " " + b
  {
  }

  lemma BlankNotLatest(v: string, i: nat)
    requires i < |v| && v[i] == ' '
    ensures VersionGiven(v)
  {
  }
}

=== FILE: command.dfy ===
/** `generate_command`: the form's selection as one command line for the
    device script, or the reason none is produced. */
module Command {
  import opened Wrappers
  import opened Text
  import opened Serial
  import opened Form

  /** Why a command is not produced; each is a blocking error dialog in
      the front-end. */
  datatype Rejection = ScriptMissing | InvalidSerial | MissingHexFile

  /** Interpreter and script every command starts with. */
  const Launcher: string := "python mpy-psoc6.py "

  function Base(a: Action): string {
    Launcher + ActionName(a)
  }

  /** A board is passed unless none is chosen or the choice is left to
      the script. */
  predicate BoardGiven(board: string) {
    board != "" && board != SelectAtRuntime
  }

  /** A version is passed unless it is empty or the default "latest". */
  predicate VersionGiven(version: string) {
    version != "" && version != LatestVersion
  }

  /** ` -b "<board>"` when a board is given. */
  function BoardArg(board: string): string {
    if BoardGiven(board) then " -b \"" + board + "\"" else ""
  }

  /** ` -n <serial>` for a non-empty (stripped) serial. */
  function SerialArg(serial: string): string {
    if serial != "" then " -n " + serial else ""
  }

  function QuietArg(quiet: bool): string {
    if quiet then " -q" else ""
  }

  /** The flags only a setup carries: ` -v <version>`, then
      ` --kitprog-fw-update`. */
  function SetupArgs(version: string, kitprog: bool): string {
    (if VersionGiven(version) then " -v " + version else "")
    + (if kitprog then " --kitprog-fw-update" else "")
  }

  /** ` -f "<path>"`, the flag only a deploy carries. */
  function HexFileArg(hexFile: string): string {
    " -f \"" + hexFile + "\""
  }

  function ActionArgs(sel: Selection): string {
    match sel.action
    case DeviceSetup => SetupArgs(sel.version, sel.kitprog)
    case DeviceErase => ""
    case FirmwareDeploy => HexFileArg(sel.hexFile)
  }

  /** The flags every action carries, in order: board, serial, quiet. */
  function CommonArgs(sel: Selection): string {
    BoardArg(sel.board) + SerialArg(Strip(sel.serial)) + QuietArg(sel.quiet)
  }

  /** The serial check `generate_command` applies to the stripped serial:
      `validate_serial` as written, or the check its error message
      describes, hexadecimal digits only. */
  datatype SerialCheck = AsWritten | HexDigitsOnly

  predicate Accepts(check: SerialCheck, serial: string) {
    match check
    case AsWritten => ValidateSerial(serial)
    case HexDigitsOnly => IsHexSerial(serial)
  }

  /** `generate_command` under either serial check. It fails exactly on a
      serial the check refuses, or on a deploy without a hex file, and a
      command always starts with the script and the action word. The source
      appends the board flag before it checks the serial and the hex file;
      since a failed check discards the partial command, the checks are made
      first here. */
  function GenerateWith(check: SerialCheck, sel: Selection): (r: Result<string, Rejection>)
    ensures r == Err(InvalidSerial) <==> !Accepts(check, Strip(sel.serial))
    ensures r == Err(MissingHexFile) <==>
              Accepts(check, Strip(sel.serial)) && sel.action == FirmwareDeploy && sel.hexFile == ""
    ensures r != Err(ScriptMissing)
    ensures r.Ok? ==> |r.value| > |Base(sel.action)| || r.value == Base(sel.action)
    ensures r.Ok? ==> r.value[..|Base(sel.action)|] == Base(sel.action)
  {
    StartsWith(Base(sel.action), CommonArgs(sel), ActionArgs(sel));
    AcceptsEmpty(check);
    var serial := Strip(sel.serial);
    if serial != "" && !Accepts(check, serial) then Err(InvalidSerial)
    else if sel.action == FirmwareDeploy && sel.hexFile == "" then Err(MissingHexFile)
    else Ok(Base(sel.action) + CommonArgs(sel) + ActionArgs(sel))
  }

  /** Both checks let the empty serial through. */
  lemma AcceptsEmpty(check: SerialCheck)
    ensures Accepts(check, [])
  {
  }

  /** Only the serial, the action and the hex file decide whether a
      command is produced. */
  lemma SameSerialSameVerdict(check: SerialCheck, s1: Selection, s2: Selection)
    requires s1.serial == s2.serial && s1.action == s2.action && s1.hexFile == s2.hexFile
    ensures GenerateWith(check, s1).Ok? == GenerateWith(check, s2).Ok?
  {
  }

  /** A command is produced whenever the check accepts the serial and no
      hex file is missing. */
  lemma Produced(check: SerialCheck, sel: Selection)
    requires Accepts(check, Strip(sel.serial))
    requires sel.action != FirmwareDeploy || sel.hexFile != ""
    ensures GenerateWith(check, sel).Ok?
  {
  }

  lemma StartsWith(a: string, b: string, c: string)
    ensures (a + b + c)[..|a|] == a
    ensures |a + b + c| > |a| || a + b + c == a
  {
    assert (a + b + c)[..|a|] == a;
    if |a + b + c| == |a| {
      assert b == [] && c == [];
      assert a + b + c == a;
    }
  }

  /** `generate_command` as written: the serial is checked by
      `validate_serial`, which lets the ff ligature through. */
  function GenerateCommandAsWritten(sel: Selection): (r: Result<string, Rejection>)
    ensures r == Err(InvalidSerial) <==> !ValidateSerial(Strip(sel.serial))
    ensures r == Err(MissingHexFile) <==>
              ValidateSerial(Strip(sel.serial)) && sel.action == FirmwareDeploy && sel.hexFile == ""
    ensures r != Err(ScriptMissing)
    ensures r.Ok? ==> |r.value| > |Base(sel.action)| || r.value == Base(sel.action)
    ensures r.Ok? ==> r.value[..|Base(sel.action)|] == Base(sel.action)
  {
    GenerateWith(AsWritten, sel)
  }

  /** `generate_command` with the serial check its error message describes:
      hexadecimal digits only. */
  function GenerateCommand(sel: Selection): (r: Result<string, Rejection>)
    ensures r == Err(InvalidSerial) <==> !IsHexSerial(Strip(sel.serial))
    ensures r == Err(MissingHexFile) <==>
              IsHexSerial(Strip(sel.serial)) && sel.action == FirmwareDeploy && sel.hexFile == ""
    ensures r != Err(ScriptMissing)
    ensures r.Ok? ==> |r.value| > |Base(sel.action)| || r.value == Base(sel.action)
    ensures r.Ok? ==> r.value[..|Base(sel.action)|] == Base(sel.action)
  {
    GenerateWith(HexDigitsOnly, sel)
  }

  /** `x` is empty or starts with a flag other than `-b`. */
  predicate NoBoardFlagFirst(x: string) {
    x == "" || (|x| >= 3 && x[..3] != " -b")
  }

  lemma NoBoardFlagFirstAppend(a: string, b: string)
    requires NoBoardFlagFirst(a) && NoBoardFlagFirst(b)
    ensures NoBoardFlagFirst(a + b)
  {
    if a == "" {
      assert a + b == b;
    } else {
      assert (a + b)[..3] == a[..3];
    }
  }

  /** Every flag that can follow the board flag is at least three
      characters long and does not start with ` -b`. */
  lemma NoBoardFlagAfterBoard(sel: Selection)
    ensures NoBoardFlagFirst(SerialArg(Strip(sel.serial)) + QuietArg(sel.quiet) + ActionArgs(sel))
  {
    var n := SerialArg(Strip(sel.serial));
    var q := QuietArg(sel.quiet);
    var t := ActionArgs(sel);
    SerialQuietNoBoardFlag(Strip(sel.serial), sel.quiet);
    ActionArgsNoBoardFlag(sel);
    NoBoardFlagFirstAppend(n, q);
    NoBoardFlagFirstAppend(n + q, t);
  }

  lemma SerialQuietNoBoardFlag(serial: string, quiet: bool)
    ensures NoBoardFlagFirst(SerialArg(serial)) && NoBoardFlagFirst(QuietArg(quiet))
  {
    var n, q := SerialArg(serial), QuietArg(quiet);
    if n != "" { assert n[..3] == " -n"; }
    if q != "" { assert q[..3] == " -q"; }
  }

  lemma ActionArgsNoBoardFlag(sel: Selection)
    ensures NoBoardFlagFirst(ActionArgs(sel))
  {
    var t := ActionArgs(sel);
    if sel.action == DeviceSetup {
      if VersionGiven(sel.version) {
        assert t[..3] == " -v";
      } else if sel.kitprog {
        assert t[..3] == " --";
      }
    } else if sel.action == FirmwareDeploy {
      assert t[..3] == " -f";
    }
  }

  /** A produced command is the base, the common flags and the action's
      flags, one after the other. */
  lemma CommandParts(check: SerialCheck, sel: Selection)
    requires GenerateWith(check, sel).Ok?
    ensures GenerateWith(check, sel).value == Base(sel.action) + CommonArgs(sel) + ActionArgs(sel)
  {
  }

  /** The `-b "<board>"` flag comes directly after the action word, and it
      is there exactly when a board is given. */
  lemma BoardFlagFollowsAction(check: SerialCheck, sel: Selection)
    requires GenerateWith(check, sel).Ok?
    ensures var rest := GenerateWith(check, sel).value[|Base(sel.action)|..];
            && (BoardGiven(sel.board) <==> |rest| >= 3 && rest[..3] == " -b")
            && (BoardGiven(sel.board) ==> (" -b \"" + sel.board + "\"") <= rest)
  {
    AfterBase(check, sel);
    NoBoardFlagAfterBoard(sel);
    BoardArgFirst(sel.board, SerialArg(Strip(sel.serial)) + QuietArg(sel.quiet) + ActionArgs(sel));
  }

  /** What follows the action word: the board flag, then everything else. */
  lemma AfterBase(check: SerialCheck, sel: Selection)
    requires GenerateWith(check, sel).Ok?
    ensures GenerateWith(check, sel).value[|Base(sel.action)|..]
         == BoardArg(sel.board) + (SerialArg(Strip(sel.serial)) + QuietArg(sel.quiet) + ActionArgs(sel))
  {
    CommandParts(check, sel);
    var base, board := Base(sel.action), BoardArg(sel.board);
    var n, q, t := SerialArg(Strip(sel.serial)), QuietArg(sel.quiet), ActionArgs(sel);
    Regroup(base, board, n, q, t);
    assert (base + (board + (n + q + t)))[|base|..] == board + (n + q + t);
  }

  lemma BoardArgFirst(board: string, tail: string)
    requires NoBoardFlagFirst(tail)
    ensures var rest := BoardArg(board) + tail;
            && (BoardGiven(board) <==> |rest| >= 3 && rest[..3] == " -b")
            && (BoardGiven(board) ==> (" -b \"" + board + "\"") <= rest)
  {
    var rest := BoardArg(board) + tail;
    if BoardGiven(board) {
      assert rest[..3] == BoardArg(board)[..3];
    } else {
      assert rest == tail;
    }
  }

  lemma Regroup(a: string, b: string, c: string, d: string, e: string)
    ensures a + (b + c + d) + e == a + (b + (c + d + e))
  {
  }

  /** Only the fields shown on the selected action's panel reach the
      command: the version and the kitprog flag matter only to a setup,
      the hex file only to a deploy. */
  lemma HiddenFieldsIgnored(check: SerialCheck, s1: Selection, s2: Selection)
    requires AgreeOnVisibleFields(s1, s2)
    ensures GenerateWith(check, s1) == GenerateWith(check, s2)
  {
    assert SameField(s1, s2, BoardField) && SameField(s1, s2, SerialField) && SameField(s1, s2, QuietField);
    match s1.action
    case DeviceSetup =>
      assert SameField(s1, s2, VersionField) && SameField(s1, s2, KitprogField);
    case DeviceErase =>
    case FirmwareDeploy =>
      assert SameField(s1, s2, HexFileField);
  }

  /** Changing the version, the kitprog flag or the hex file changes the
      command only for the action whose panel shows that field. */
  lemma IrrelevantFieldsIgnored(check: SerialCheck, sel: Selection, version: string, kitprog: bool, hexFile: string)
    ensures sel.action != DeviceSetup ==>
              GenerateWith(check, sel.(version := version, kitprog := kitprog)) == GenerateWith(check, sel)
    ensures sel.action != FirmwareDeploy ==>
              GenerateWith(check, sel.(hexFile := hexFile)) == GenerateWith(check, sel)
  {
    if sel.action != DeviceSetup {
      HiddenFieldsIgnored(check, sel.(version := version, kitprog := kitprog), sel);
    }
    if sel.action != FirmwareDeploy {
      HiddenFieldsIgnored(check, sel.(hexFile := hexFile), sel);
    }
  }

  /** An erase carries the common flags only: exactly what a setup with the
      default version and no kitprog update carries after its action word. */
  lemma EraseAddsNoOptions(check: SerialCheck, sel: Selection)
    requires sel.action == DeviceErase
    ensures var setup := sel.(action := DeviceSetup, version := LatestVersion, kitprog := false);
            && GenerateWith(check, sel).Ok? == GenerateWith(check, setup).Ok?
            && (GenerateWith(check, sel).Ok? ==>
                  GenerateWith(check, sel).value
                  == Base(DeviceErase) + GenerateWith(check, setup).value[|Base(DeviceSetup)|..])
  {
    var setup := sel.(action := DeviceSetup, version := LatestVersion, kitprog := false);
    if GenerateWith(check, sel).Ok? {
      var common := CommonArgs(sel);
      assert SetupArgs(LatestVersion, false) == "";
      assert GenerateWith(check, sel).value == Base(DeviceErase) + common;
      assert GenerateWith(check, setup).value == Base(DeviceSetup) + common;
    }
  }

  /** A deploy is an erase's command line with the quoted hex file appended
      last. */
  lemma DeployAppendsHexFile(check: SerialCheck, sel: Selection)
    requires sel.action == FirmwareDeploy && sel.hexFile != ""
    ensures var erase := sel.(action := DeviceErase);
            && GenerateWith(check, sel).Ok? == GenerateWith(check, erase).Ok?
            && (GenerateWith(check, sel).Ok? ==>
                  GenerateWith(check, sel).value
                  == Base(FirmwareDeploy) + GenerateWith(check, erase).value[|Base(DeviceErase)|..]
                     + " -f \"" + sel.hexFile + "\"")
  {
    var erase := sel.(action := DeviceErase);
    if GenerateWith(check, sel).Ok? {
      CommandParts(check, sel);
      CommandParts(check, erase);
      assert CommonArgs(erase) == CommonArgs(sel) && ActionArgs(erase) == "";
      DropPrefix(Base(DeviceErase), CommonArgs(sel));
    }
  }

  lemma DropPrefix(a: string, b: string)
    ensures (a + b + "")[|a|..] == b
  {
    assert a + b + "" == a + b;
  }

  /** The two serial checks give the same command line for every serial
      that does not contain the ff ligature. */
  lemma AsWrittenAgrees(sel: Selection)
    requires FfLigature !in Strip(sel.serial)
    ensures GenerateCommandAsWritten(sel) == GenerateCommand(sel)
  {
    ValidateSerialAgrees(sel.serial);
  }

  /** The discrepancy on a whole command: a setup whose serial is "ﬀ" gets
      `-n ﬀ` passed to the script as written, and is refused by the
      intended check. */
  lemma LigatureReachesCommand(sel: Selection)
    requires sel == Initial().(serial := [FfLigature])
    ensures GenerateCommandAsWritten(sel)
            == Ok(Base(DeviceSetup) + " -b \"CY8CPROTO-062-4343W\"" + " -n " + [FfLigature])
    ensures GenerateCommand(sel) == Err(InvalidSerial)
  {
    LigatureFlags(sel);
    LigatureVerdicts(sel);
    var b, n := " -b \"CY8CPROTO-062-4343W\"", " -n " + [FfLigature];
    DropEmpty(Base(DeviceSetup), b, n);
    Cat4(Base(DeviceSetup), b, " -n ", [FfLigature]);
  }

  lemma LigatureFlags(sel: Selection)
    requires sel == Initial().(serial := [FfLigature])
    ensures CommonArgs(sel) == " -b \"CY8CPROTO-062-4343W\"" + (" -n " + [FfLigature]) + ""
    ensures ActionArgs(sel) == ""
  {
    LigatureSerialAccepted();
    InitialBoardOffered();
    assert BoardArg(sel.board) == " -b \"CY8CPROTO-062-4343W\"";
    assert SerialArg(Strip(sel.serial)) == " -n " + [FfLigature];
    assert QuietArg(sel.quiet) == "";
  }

  lemma LigatureVerdicts(sel: Selection)
    requires sel.action == DeviceSetup && sel.serial == [FfLigature]
    ensures GenerateCommandAsWritten(sel) == Ok(Base(DeviceSetup) + CommonArgs(sel) + ActionArgs(sel))
    ensures GenerateCommand(sel) == Err(InvalidSerial)
  {
    LigatureSerialAccepted();
    CommandParts(AsWritten, sel);
  }

  lemma DropEmpty(a: string, b: string, c: string)
    ensures a + (b + c + "") + "" == a + b + c
  {
  }

  lemma Cat4(a: string, b: string, c: string, d: string)
    ensures a + b + (c + d) == a + b + c + d
  {
  }

  /** Picking "Select at runtime" on the setup panel and switching to erase
      keeps the shared board value, so an erase can be built without `-b`
      although the erase panel never offers that entry. */
  lemma RuntimeBoardSurvivesSwitch(check: SerialCheck)
    ensures var sel := Run(Initial(), [ChooseBoard(SelectAtRuntime), ChooseAction(DeviceErase)]);
            && sel.action == DeviceErase
            && sel.board == SelectAtRuntime
            && GenerateWith(check, sel) == Ok("python mpy-psoc6.py device-erase")
  {
    var edits := [ChooseBoard(SelectAtRuntime), ChooseAction(DeviceErase)];
    assert SelectAtRuntime in OfferedBoards(SetupPanel);
    var s1 := Apply(Initial(), edits[0]);
    assert s1 == Initial().(board := SelectAtRuntime);
    var s2 := Apply(s1, edits[1]);
    assert edits[1..][1..] == [];
    assert Run(Initial(), edits) == Run(s2, []) == s2;
    assert s2 == Selection(DeviceErase, SelectAtRuntime, "", LatestVersion, false, false, "");
    EmptyErase(check, s2);
  }

  /** An erase with no board, no serial and no flags is the bare base. */
  lemma EmptyErase(check: SerialCheck, sel: Selection)
    requires sel.action == DeviceErase && !BoardGiven(sel.board) && sel.serial == "" && !sel.quiet
    ensures GenerateWith(check, sel) == Ok("python mpy-psoc6.py device-erase")
  {
    EmptyEraseIsBase(check, sel);
    BaseErase();
  }

  lemma EmptyEraseIsBase(check: SerialCheck, sel: Selection)
    requires sel.action == DeviceErase && !BoardGiven(sel.board) && sel.serial == "" && !sel.quiet
    ensures GenerateWith(check, sel) == Ok(Base(DeviceErase))
  {
    EmptyEraseFlags(check, sel);
    CommandParts(check, sel);
    assert Base(DeviceErase) + [] + [] == Base(DeviceErase);
  }

  lemma EmptyEraseFlags(check: SerialCheck, sel: Selection)
    requires sel.action == DeviceErase && !BoardGiven(sel.board) && sel.serial == "" && !sel.quiet
    ensures GenerateWith(check, sel).Ok?
    ensures CommonArgs(sel) == [] && ActionArgs(sel) == []
  {
    EmptySerial(check);
    EmptyEraseOk(check, sel);
    assert BoardArg(sel.board) == [] && QuietArg(sel.quiet) == [];
  }

  lemma EmptyEraseOk(check: SerialCheck, sel: Selection)
    requires sel.action == DeviceErase && sel.serial == ""
    ensures GenerateWith(check, sel).Ok?
  {
    EmptySerial(check);
    Produced(check, sel);
  }

  lemma BaseErase()
    ensures Base(DeviceErase) == "python mpy-psoc6.py device-erase"
  {
  }

  lemma EmptySerial(check: SerialCheck)
    ensures Strip("") == "" && Accepts(check, "") && SerialArg("") == ""
  {
  }
}

=== FILE: execution.dfy ===
/** `execute_command`: check that the script is there, build the command,
    write the log header and hand the command to the terminal launcher. */
module Execution {
  import opened Wrappers
  import opened Serial
  import opened Form
  import opened Command
  import opened Shell
  import opened Terminal
  import opened Cli

  /** Everything one press of "Execute" produces: the command, the text the
      log shows, and the argument lists tried in order to open a terminal. */
  datatype Launch = Launch(command: string, log: string, gnome: seq<string>, xterm: seq<string>)

  /** `c` written `n` times. */
  function Repeat(c: char, n: nat): (r: string)
    ensures |r| == n
    ensures forall k :: 0 <= k < n ==> r[k] == c
  {
    if n == 0 then [] else [c] + Repeat(c, n - 1)
  }

  const LogIntro: string := "Executing command:\n\n$ "

  /** What follows the command in the log: a blank line, a rule of sixty
      `=`, and another blank line. */
  const LogOutro: string := "\n\n" + Repeat('=', 60) + "\n\n"

  /** The log after it is cleared and the header is written. */
  function LogHeader(cmd: string): (log: string)
    ensures |log| == |LogIntro| + |cmd| + 64
  {
    LogIntro + cmd + LogOutro
  }

  /** Inverse of the header: the command a log header shows, if the text is
      one. */
  function LoggedCommand(log: string): Option<string> {
    if |log| >= |LogIntro| + |LogOutro|
       && log[..|LogIntro|] == LogIntro && log[|log| - |LogOutro|..] == LogOutro
    then Some(log[|LogIntro|..|log| - |LogOutro|])
    else None
  }

  /** The header shows exactly the command, and every header shows one. */
  lemma LogHeaderRoundTrip(cmd: string, log: string)
    ensures LoggedCommand(LogHeader(cmd)) == Some(cmd)
    ensures LoggedCommand(log).Some? ==> LogHeader(LoggedCommand(log).value) == log
  {
    var h := LogHeader(cmd);
    assert h == LogIntro + (cmd + LogOutro);
    assert h[..|LogIntro|] == LogIntro;
    assert h[|h| - |LogOutro|..] == LogOutro;
    assert h[|LogIntro|..|h| - |LogOutro|] == cmd;
    if LoggedCommand(log).Some? {
      var c := LoggedCommand(log).value;
      assert log == log[..|LogIntro|] + c + log[|log| - |LogOutro|..];
    }
  }

  /** Pressing "Execute", with the command built under the serial check
      `check`; the front-end as written is `Execute(AsWritten, ...)`.
      Nothing happens without the script or when the form is rejected;
      otherwise the log header is written and the terminals are tried with
      the command. */
  function Execute(check: SerialCheck, scriptExists: bool, sel: Selection): (r: Result<Launch, Rejection>)
    ensures r == Err(ScriptMissing) <==> !scriptExists
    ensures scriptExists && r.Err? ==> GenerateWith(check, sel) == Err(r.error)
    ensures r.Ok? <==> scriptExists && GenerateWith(check, sel).Ok?
    ensures r.Ok? ==> && r.value.command == GenerateWith(check, sel).value
                      && r.value.command != ""
                      && LoggedCommand(r.value.log) == Some(r.value.command)
                      && r.value.gnome == GnomeArgv(r.value.command)
                      && r.value.xterm == XtermArgv(r.value.command)
                      && Unwrap(r.value.gnome[4]) == Some(r.value.command)
  {
    if !scriptExists then Err(ScriptMissing)
    else
      match GenerateWith(check, sel)
      case Err(e) => Err(e)
      case Ok(cmd) => Ok(LaunchOf(cmd))
  }

  /** The log header and the terminal argument lists for a command. */
  function LaunchOf(cmd: string): (l: Launch)
    ensures l.command == cmd
    ensures LoggedCommand(l.log) == Some(cmd)
    ensures l.gnome == GnomeArgv(cmd) && l.xterm == XtermArgv(cmd)
    ensures Unwrap(l.gnome[4]) == Some(cmd)
  {
    LogHeaderRoundTrip(cmd, "");
    KeepOpenRoundTrip(cmd, "");
    Launch(cmd, LogHeader(cmd), GnomeArgv(cmd), XtermArgv(cmd))
  }

  /** A command built from a form whose texts need no shell quoting has no
      backslash in it. */
  lemma CommandHasNoBackslash(check: SerialCheck, sel: Selection)
    requires GenerateWith(check, sel).Ok? && ShellSafe(sel)
    ensures NoBackslash(GenerateWith(check, sel).value)
  {
    var c := GenerateWith(check, sel).value;
    CommandSpaced(check, sel);
    WordsSafe(check, sel);
    SpacedNoBackslash(Words(sel));
    forall k | 0 <= k < |c| ensures c[k] != '\\' {
      assert c[k] == (" " + c)[k + 1];
    }
  }

  /** From the form to the terminal: whichever terminal opens, bash is
      handed the wrapped command, and a shell reading that command gets
      the invocation the form describes. */
  lemma ExecuteRunsIntended(check: SerialCheck, sel: Selection)
    requires GenerateWith(check, sel).Ok? && ShellSafe(sel)
    ensures Execute(check, true, sel).Ok?
    ensures var l := Execute(check, true, sel).value;
            && Unwrap(l.gnome[4]) == Some(l.command)
            && Split(l.xterm[2]) == l.gnome[2..]
            && ParseArgv(Split(l.command)) == Some(Intended(sel))
  {
    var cmd := GenerateWith(check, sel).value;
    CommandHasNoBackslash(check, sel);
    XtermRunsSameScript(cmd);
    CommandMeaning(check, sel);
  }

  /** The discrepancy at the button: with the check as written, a setup
      whose serial is "ﬀ" opens a terminal running a command that passes
      `-n ﬀ`; with the intended check the press is refused. */
  lemma LigatureLaunched(sel: Selection)
    requires sel == Initial().(serial := [FfLigature])
    ensures Execute(AsWritten, true, sel).Ok?
    ensures Execute(AsWritten, true, sel).value.command
            == Base(DeviceSetup) + " -b \"CY8CPROTO-062-4343W\"" + " -n " + [FfLigature]
    ensures Execute(HexDigitsOnly, true, sel) == Err(InvalidSerial)
  {
    LigatureReachesCommand(sel);
  }
}

=== FILE: form.dfy ===
/** The form the front-end shows: the selected action, the shared field
    values, the three option panels and the edits a user can make. */
module Form {
  import opened Wrappers

  /** The three radio buttons of the "Action" frame. */
  datatype Action = DeviceSetup | DeviceErase | FirmwareDeploy

  /** The value each radio button stores in the action variable, which is
      also the action word of the generated command. */
  function ActionName(a: Action): string {
    match a
    case DeviceSetup => "device-setup"
    case DeviceErase => "device-erase"
    case FirmwareDeploy => "firmware-deploy"
  }

  /** Reads an action word back; `None` for any other word. */
  function ActionFromName(name: string): (r: Option<Action>)
    ensures r.Some? ==> ActionName(r.value) == name
  {
    if name == "device-setup" then Some(DeviceSetup)
    else if name == "device-erase" then Some(DeviceErase)
    else if name == "firmware-deploy" then Some(FirmwareDeploy)
    else None
  }

  lemma ActionNameRoundTrip(a: Action)
    ensures ActionFromName(ActionName(a)) == Some(a)
  {
  }

  /** Every field value the form holds. The board, serial and quiet values
      are one variable each, shared by all three panels. */
  datatype Selection = Selection(
    action: Action,
    board: string,
    serial: string,
    version: string,
    kitprog: bool,
    quiet: bool,
    hexFile: string)

  /** First entry of the setup panel's board list: leave the choice to the
      script. */
  const SelectAtRuntime: string := "Select at runtime"

  /** The version value that means "the most recent release". */
  const LatestVersion: string := "latest"

  const KnownBoards: seq<string> :=
    ["CY8CPROTO-062-4343W", "CY8CPROTO-063-BLE", "CY8CKIT-062S2-AI"]

  /** The option panels; exactly one is shown at a time. */
  datatype Panel = SetupPanel | ErasePanel | DeployPanel

  /** The action whose options a panel holds. */
  function PanelAction(p: Panel): Action {
    match p
    case SetupPanel => DeviceSetup
    case ErasePanel => DeviceErase
    case DeployPanel => FirmwareDeploy
  }

  /** The panels `update_options_visibility` leaves on screen: all three are
      removed and only the one for the selected action is shown again. */
  function VisiblePanels(a: Action): (r: set<Panel>)
    ensures |r| == 1
    ensures forall p :: p in r <==> PanelAction(p) == a
  {
    match a
    case DeviceSetup => {SetupPanel}
    case DeviceErase => {ErasePanel}
    case FirmwareDeploy => {DeployPanel}
  }

  /** The panel shown for an action. */
  function PanelOf(a: Action): (p: Panel)
    ensures p in VisiblePanels(a)
  {
    match a
    case DeviceSetup => SetupPanel
    case DeviceErase => ErasePanel
    case FirmwareDeploy => DeployPanel
  }

  /** The boards a panel's read-only combobox offers; only the setup panel
      offers to choose at runtime. */
  function OfferedBoards(p: Panel): seq<string> {
    if p == SetupPanel then [SelectAtRuntime] + KnownBoards else KnownBoards
  }

  datatype Field = BoardField | SerialField | VersionField | KitprogField | QuietField | HexFileField

  /** The fields each panel has an input widget for. */
  function PanelFields(p: Panel): set<Field> {
    var common := {BoardField, SerialField, QuietField};
    match p
    case SetupPanel => common + {VersionField, KitprogField}
    case ErasePanel => common
    case DeployPanel => common + {HexFileField}
  }

  /** Two selections hold the same value in field `f`. */
  predicate SameField(s1: Selection, s2: Selection, f: Field) {
    match f
    case BoardField => s1.board == s2.board
    case SerialField => s1.serial == s2.serial
    case VersionField => s1.version == s2.version
    case KitprogField => s1.kitprog == s2.kitprog
    case QuietField => s1.quiet == s2.quiet
    case HexFileField => s1.hexFile == s2.hexFile
  }

  /** Two selections agree on everything the panel of their action shows. */
  predicate AgreeOnVisibleFields(s1: Selection, s2: Selection) {
    && s1.action == s2.action
    && forall f :: f in PanelFields(PanelOf(s1.action)) ==> SameField(s1, s2, f)
  }

  /** The form right after construction. Each panel's combobox selects its
      first entry into the one shared board variable, and the deploy panel
      is built last, so its first board is the initial value even though
      the setup panel is the one shown. */
  function Initial(): Selection {
    Selection(DeviceSetup, OfferedBoards(DeployPanel)[0], "", LatestVersion, false, false, "")
  }

  /** One user interaction with the form. */
  datatype Edit =
    | ChooseAction(action: Action)
    | ChooseBoard(board: string)
    | TypeSerial(serial: string)
    | TypeVersion(version: string)
    | SetKitprog(kitprog: bool)
    | SetQuiet(quiet: bool)
    | TypeHexFile(path: string)
    | BrowseHexFile(chosen: string)

  /** The selection after one edit. A read-only combobox only takes an
      entry of its own list, and a cancelled file dialog (empty answer)
      leaves the path as it was. */
  function Apply(sel: Selection, e: Edit): Selection {
    match e
    case ChooseAction(a) => sel.(action := a)
    case ChooseBoard(b) =>
      if b in OfferedBoards(PanelOf(sel.action)) then sel.(board := b) else sel
    case TypeSerial(s) => sel.(serial := s)
    case TypeVersion(v) => sel.(version := v)
    case SetKitprog(k) => sel.(kitprog := k)
    case SetQuiet(q) => sel.(quiet := q)
    case TypeHexFile(p) => sel.(hexFile := p)
    case BrowseHexFile(f) => if f != "" then sel.(hexFile := f) else sel
  }

  function Run(sel: Selection, edits: seq<Edit>): Selection
    decreases |edits|
  {
    if edits == [] then sel else Run(Apply(sel, edits[0]), edits[1..])
  }

  /** Switching panels does not reset any field: switching back restores
      the selection exactly. */
  lemma SwitchBackRestores(sel: Selection, a: Action)
    ensures Apply(Apply(sel, ChooseAction(a)), ChooseAction(sel.action)) == sel
    ensures AgreeOnVisibleFields(Apply(sel, ChooseAction(a)), sel.(action := a))
  {
  }

  /** Cancelling the file dialog keeps the path; choosing a file replaces
      the path and leaves the action and every other field as it was. */
  lemma BrowseKeepsPathOnCancel(sel: Selection, chosen: string)
    ensures chosen == "" ==> Apply(sel, BrowseHexFile(chosen)) == sel
    ensures chosen != "" ==> Apply(sel, BrowseHexFile(chosen)).hexFile == chosen
    ensures chosen != "" ==> Apply(sel, BrowseHexFile(chosen)).action == sel.action
    ensures forall f :: f != HexFileField ==> SameField(Apply(sel, BrowseHexFile(chosen)), sel, f)
  {
  }

  /** The board variable only ever holds an entry some panel offers. */
  ghost predicate BoardOffered(sel: Selection) {
    sel.board in OfferedBoards(SetupPanel)
  }

  lemma {:induction false} BoardAlwaysOffered(sel: Selection, edits: seq<Edit>)
    requires BoardOffered(sel)
    ensures BoardOffered(Run(sel, edits))
    decreases |edits|
  {
    if edits != [] {
      var next := Apply(sel, edits[0]);
      if edits[0].ChooseBoard? && edits[0].board in OfferedBoards(PanelOf(sel.action)) {
        assert next.board in OfferedBoards(SetupPanel);
      }
      BoardAlwaysOffered(next, edits[1..]);
    }
  }

  lemma InitialBoardOffered()
    ensures BoardOffered(Initial())
    ensures Initial().board == "CY8CPROTO-062-4343W"
  {
  }
}

=== FILE: serial.dfy ===
/** The adapter serial-number check of the front-end, `validate_serial`,
    as written and as its error message describes it. */
module Serial {
  import opened Text

  /** A hexadecimal digit in either case: what the check's error message
      asks for ("only hexadecimal characters (0-9 and A-F)"). */
  predicate IsHexDigit(c: char) {
    '0' <= c <= '9' || 'A' <= c <= 'F' || 'a' <= c <= 'f'
  }

  /** The character class `[A-F0-9]` of the check's regular expression. */
  predicate IsUpperHexDigit(c: char) {
    '0' <= c <= '9' || 'A' <= c <= 'F'
  }

  /** Every character of `t` is in `[A-F0-9]`. */
  predicate AllUpperHex(t: string) {
    t == [] || (IsUpperHexDigit(t[0]) && AllUpperHex(t[1..]))
  }

  /** LATIN SMALL LIGATURE FF, whose full upper-case mapping is "FF". */
  const FfLigature: char := '\U{FB00}'

  /** Python's `str.upper()` of one character, as far as a match against
      `[A-F0-9]` can observe it: ASCII letters move to upper case and the
      ff ligature expands to two letters. Every other character is kept;
      no other character has an upper-case image made only of `0-9`/`A-F`. */
  function UpperChar(c: char): string {
    if 'a' <= c <= 'z' then [(c as int - 32) as char]
    else if c == FfLigature then "FF"
    else [c]
  }

  function Upper(s: string): string {
    if s == [] then [] else UpperChar(s[0]) + Upper(s[1..])
  }

  /** `re.match(r'^[A-F0-9]+$', t)`: one or more characters of the class,
      then the end of the string, where Python's `$` also matches just
      before a final newline. */
  predicate MatchesHexPattern(t: string) {
    || (|t| > 0 && AllUpperHex(t))
    || (|t| > 1 && t[|t| - 1] == '\n' && AllUpperHex(t[..|t| - 1]))
  }

  /** `validate_serial` as written: the empty serial passes, any other
      passes when its upper-cased form matches the pattern. */
  predicate ValidateSerial(serial: string) {
    serial == [] || MatchesHexPattern(Upper(serial))
  }

  /** The check the source evidently intends: every character is a
      hexadecimal digit (the empty serial still passes). */
  predicate IsHexSerial(serial: string) {
    forall k :: 0 <= k < |serial| ==> IsHexDigit(serial[k])
  }

  /** Hexadecimal digits (either case) and the ff ligature: the
      characters whose upper-case image is made only of `[A-F0-9]`. */
  predicate HexOrLigature(c: char) {
    IsHexDigit(c) || c == FfLigature
  }

  lemma {:induction false} AllUpperHexAppend(a: string, b: string)
    ensures AllUpperHex(a + b) <==> AllUpperHex(a) && AllUpperHex(b)
  {
    if a == [] {
      assert a + b == b;
    } else {
      assert (a + b)[0] == a[0];
      assert (a + b)[1..] == a[1..] + b;
      AllUpperHexAppend(a[1..], b);
    }
  }

  lemma UpperCharHex(c: char)
    ensures AllUpperHex(UpperChar(c)) <==> HexOrLigature(c)
  {
    var u := UpperChar(c);
    if c == FfLigature {
      assert u == "FF" && u[1..] == "F" && u[1..][1..] == [];
      assert AllUpperHex(u[1..]);
    } else {
      assert |u| == 1 && u[1..] == [];
      assert AllUpperHex(u) <==> IsUpperHexDigit(u[0]);
      if 'a' <= c <= 'z' {
        assert u[0] as int == c as int - 32;
      }
    }
  }

  /** What `[A-F0-9]` sees after `upper()`: exactly the hexadecimal digits
      and the ff ligature. */
  lemma {:induction false} UpperAllHex(s: string)
    ensures |Upper(s)| >= |s|
    ensures AllUpperHex(Upper(s)) <==> forall k :: 0 <= k < |s| ==> HexOrLigature(s[k])
  {
    if s != [] {
      UpperAllHex(s[1..]);
      UpperCharHex(s[0]);
      AllUpperHexAppend(UpperChar(s[0]), Upper(s[1..]));
      AllFromFirst(s);
    }
  }

  lemma AllFromFirst(s: string)
    requires s != []
    ensures (forall k :: 0 <= k < |s| ==> HexOrLigature(s[k]))
            <==> HexOrLigature(s[0]) && forall k :: 0 <= k < |s| - 1 ==> HexOrLigature(s[1..][k])
  {
    if HexOrLigature(s[0]) && forall k :: 0 <= k < |s| - 1 ==> HexOrLigature(s[1..][k]) {
      forall k | 0 <= k < |s| ensures HexOrLigature(s[k]) {
        if k > 0 { assert s[k] == s[1..][k - 1]; }
      }
    }
  }

  /** Upper-casing keeps a final newline and never invents one. */
  lemma {:induction false} UpperLastChar(s: string)
    ensures s != [] ==> Upper(s) != []
    ensures Upper(s) != [] && Upper(s)[|Upper(s)| - 1] == '\n' <==> s != [] && s[|s| - 1] == '\n'
  {
    if s != [] {
      UpperLastChar(s[1..]);
      var head := UpperChar(s[0]);
      var tail := Upper(s[1..]);
      assert Upper(s) == head + tail;
      if s[1..] == [] {
        assert tail == [];
      } else {
        assert Upper(s)[|Upper(s)| - 1] == tail[|tail| - 1];
        assert s[|s| - 1] == s[1..][|s[1..]| - 1];
      }
    }
  }

  /** A string produced by `strip()` cannot end in a newline, so the
      newline alternative of `$` never applies to the serials the command
      builder checks. */
  lemma StrippedHasNoFinalNewline(raw: string)
    ensures var s := Strip(raw); s == [] || s[|s| - 1] != '\n'
  {
    var t := raw[LeadingSpace(raw)..];
    var m := TrailingSpace(t);
    var s := Strip(raw);
    assert s == t[..|t| - m];
    if s != [] {
      assert s[|s| - 1] == t[|t| - 1 - m];
      assert IsSpace('\n');
    }
  }

  /** On a serial without a final newline, `validate_serial` accepts
      exactly the strings of hexadecimal digits and ff ligatures. */
  lemma ValidateSerialAccepts(s: string)
    requires s == [] || s[|s| - 1] != '\n'
    ensures ValidateSerial(s) <==> forall k :: 0 <= k < |s| ==> HexOrLigature(s[k])
  {
    UpperAllHex(s);
    UpperLastChar(s);
  }

  /** Apart from the ff ligature, the check as written and the intended
      check agree on every serial that has been through `strip()`. */
  lemma ValidateSerialAgrees(raw: string)
    requires FfLigature !in Strip(raw)
    ensures ValidateSerial(Strip(raw)) == IsHexSerial(Strip(raw))
  {
    StrippedHasNoFinalNewline(raw);
    ValidateSerialAccepts(Strip(raw));
  }

  /** The discrepancy: the one-character serial "ﬀ" survives `strip()`,
      passes `validate_serial`, and is not hexadecimal. */
  lemma LigatureSerialAccepted()
    ensures Strip([FfLigature]) == [FfLigature]
    ensures ValidateSerial(Strip([FfLigature]))
    ensures !IsHexSerial(Strip([FfLigature]))
  {
    LigatureStripped();
    LigatureValid();
  }

  lemma LigatureStripped()
    ensures Strip([FfLigature]) == [FfLigature]
  {
    var s := [FfLigature];
    assert !IsSpace(FfLigature);
    assert s[..0] == [] && s[1..] == [];
    StripBoundsMatch(s, 0, 1);
    assert s[0..1] == s;
  }

  lemma LigatureValid()
    ensures ValidateSerial([FfLigature]) && !IsHexSerial([FfLigature])
  {
    ValidateSerialAccepts([FfLigature]);
  }
}

=== FILE: shell.dfy ===
/** How a POSIX shell cuts a command line into arguments, as far as the
    generated commands need it: blanks separate words, double quotes group
    and disappear, and a backslash escapes the next character (inside
    double quotes only `"`, `\`, `$` and a backquote). Expansions and
    command separators (`;`, a newline) are not modelled: `;` is read as an
    ordinary character and a newline as a blank. */
module Shell {

  predicate IsBlank(c: char) {
    c == ' ' || c == '\t' || c == '\n'
  }

  /** Characters a backslash escapes inside double quotes. */
  predicate QuoteEscapable(c: char) {
    c == '"' || c == '\\' || c == '$' || c == '`'
  }

  /** Reads the rest of one word from `s`, `quoted` telling whether a double
      quote is open. Returns the word read so far, `acc` included, and what
      follows the word (starting with the blank that ended it). */
  function Scan(s: string, quoted: bool, acc: string): (r: (string, string))
    ensures |r.1| <= |s|
    ensures |s| > 0 && (quoted || !IsBlank(s[0])) ==> |r.1| < |s|
    decreases |s|
  {
    if s == [] then (acc, [])
    else if s[0] == '"' then Scan(s[1..], !quoted, acc)
    else if s[0] == '\\' && |s| >= 2 then
      if quoted && !QuoteEscapable(s[1]) then Scan(s[2..], quoted, acc + s[..2])
      else Scan(s[2..], quoted, acc + [s[1]])
    else if IsBlank(s[0]) && !quoted then (acc, s)
    else Scan(s[1..], quoted, acc + [s[0]])
  }

  /** The argument list a shell makes of the command line `s`. */
  function Split(s: string): (args: seq<string>)
    ensures |args| <= |s|
    decreases |s|
  {
    if s == [] then []
    else if IsBlank(s[0]) then Split(s[1..])
    else
      var (word, rest) := Scan(s, false, []);
      [word] + Split(rest)
  }

  /** A word as it is written in a command line: bare, or in double quotes. */
  datatype Word = Bare(text: string) | Quoted(text: string)

  function Show(w: Word): string {
    match w
    case Bare(t) => t
    case Quoted(t) => "\"" + t + "\""
  }

  /** Characters a shell treats specially outside quotes. */
  predicate IsShellSpecial(c: char) {
    || IsBlank(c) || QuoteEscapable(c)
    || c == '\'' || c == ';' || c == '&' || c == '|' || c == '<' || c == '>'
    || c == '(' || c == ')' || c == '*' || c == '?' || c == '[' || c == ']'
    || c == '#' || c == '~' || c == '{' || c == '}' || c == '!'
  }

  /** Text that a shell passes on unchanged when written bare. */
  predicate BareSafe(t: string) {
    t != [] && forall k :: 0 <= k < |t| ==> !IsShellSpecial(t[k])
  }

  /** Text that a shell passes on unchanged when written in double quotes. */
  predicate QuotedSafe(t: string) {
    forall k :: 0 <= k < |t| ==> !QuoteEscapable(t[k])
  }

  predicate NoBackslash(s: string) {
    forall k :: 0 <= k < |s| ==> s[k] != '\\'
  }

  predicate SafeWord(w: Word) {
    match w
    case Bare(t) => BareSafe(t)
    case Quoted(t) => QuotedSafe(t)
  }

  /** Words written one after another, each preceded by a single space. */
  function Spaced(ws: seq<Word>): string {
    if ws == [] then [] else " " + Show(ws[0]) + Spaced(ws[1..])
  }

  function Texts(ws: seq<Word>): seq<string> {
    if ws == [] then [] else [ws[0].text] + Texts(ws[1..])
  }

  lemma {:induction false} SpacedAppend(a: seq<Word>, b: seq<Word>)
    ensures Spaced(a + b) == Spaced(a) + Spaced(b)
    ensures Texts(a + b) == Texts(a) + Texts(b)
  {
    if a == [] {
      assert a + b == b;
    } else {
      assert (a + b)[0] == a[0];
      assert (a + b)[1..] == a[1..] + b;
      SpacedAppend(a[1..], b);
    }
  }

  /** Reading over text without quotes, backslashes (and, outside quotes,
      blanks) copies it into the word. */
  lemma {:induction false} ScanPlain(t: string, rest: string, quoted: bool, acc: string)
    requires forall k :: 0 <= k < |t| ==> t[k] != '"' && t[k] != '\\' && (quoted || !IsBlank(t[k]))
    ensures Scan(t + rest, quoted, acc) == Scan(rest, quoted, acc + t)
  {
    if t == [] {
      assert t + rest == rest;
      assert acc + t == acc;
    } else {
      assert (t + rest)[0] == t[0];
      assert (t + rest)[1..] == t[1..] + rest;
      ScanPlain(t[1..], rest, quoted, acc + [t[0]]);
      assert acc + [t[0]] + t[1..] == acc + t;
    }
  }

  lemma ScanWord(w: Word, rest: string)
    requires SafeWord(w)
    requires rest == [] || IsBlank(rest[0])
    ensures Scan(Show(w) + rest, false, []) == (w.text, rest)
  {
    match w
    case Bare(t) =>
      ScanPlain(t, rest, false, []);
      assert [] + t == t;
    case Quoted(t) =>
      var s := "\"" + t + "\"" + rest;
      assert s[0] == '"';
      assert s[1..] == t + ("\"" + rest);
      ScanPlain(t, "\"" + rest, true, []);
      assert [] + t == t;
      assert ("\"" + rest)[1..] == rest;
  }

  /** A shell reads spaced safe words back as exactly their texts. */
  lemma {:induction false} SplitSpaced(ws: seq<Word>)
    requires forall k :: 0 <= k < |ws| ==> SafeWord(ws[k])
    ensures Split(Spaced(ws)) == Texts(ws)
  {
    if ws != [] {
      var w := ws[0];
      var rest := Spaced(ws[1..]);
      var s := Spaced(ws);
      assert s == " " + (Show(w) + rest);
      assert s[0] == ' ' && s[1..] == Show(w) + rest;
      var body := Show(w) + rest;
      assert body[0] == Show(w)[0];
      assert !IsBlank(body[0]) by {
        if w.Bare? { assert w.text[0] == body[0]; }
      }
      if ws[1..] != [] {
        assert rest[0] == ' ';
      }
      ScanWord(w, rest);
      SplitSpaced(ws[1..]);
    }
  }

  lemma NoBackslashAppend(a: string, b: string)
    requires NoBackslash(a) && NoBackslash(b)
    ensures NoBackslash(a + b)
  {
    forall k | 0 <= k < |a + b| ensures (a + b)[k] != '\\' {
      if k >= |a| { assert (a + b)[k] == b[k - |a|]; }
    }
  }

  /** A safe word, as written, contains no backslash. */
  lemma ShowNoBackslash(w: Word)
    requires SafeWord(w)
    ensures NoBackslash(Show(w))
  {
    if w.Quoted? {
      assert NoBackslash(w.text);
      NoBackslashAppend("\"", w.text);
      NoBackslashAppend("\"" + w.text, "\"");
    }
  }

  /** Safe words, spaced, contain no backslash. */
  lemma {:induction false} SpacedNoBackslash(ws: seq<Word>)
    requires forall k :: 0 <= k < |ws| ==> SafeWord(ws[k])
    ensures NoBackslash(Spaced(ws))
  {
    if ws != [] {
      SpacedNoBackslash(ws[1..]);
      ShowNoBackslash(ws[0]);
      NoBackslashAppend(" ", Show(ws[0]));
      NoBackslashAppend(" " + Show(ws[0]), Spaced(ws[1..]));
    }
  }
}

=== FILE: terminal.dfy ===
/** `run_subprocess`'s command strings: the wrapper that keeps the terminal
    window open, the argument lists for gnome-terminal and for the xterm
    fallback, and the quote escaping the fallback needs. */
module Terminal {
  import opened Wrappers
  import opened Text
  import opened Shell

  /** "Process finished. Press Enter to close this window.", written word
      by word so that facts about its characters can be shown per word. */
  const ClosePrompt: string :=
    "Process " + "finished. " + "Press " + "Enter " + "to close " + "this " + "window."

  /** What the wrapper appends: wait for Enter, showing the prompt. */
  const KeepOpenTail: string := "; read -p \"" + ClosePrompt + "\""

  /** The command followed by a `read` that waits for Enter, so the window
      stays open after the command finishes. */
  function KeepOpen(cmd: string): (full: string)
    ensures |full| == |cmd| + |KeepOpenTail|
  {
    cmd + "; read -p \"" + ClosePrompt + "\""
  }

  /** Inverse of the wrapper: the command inside a wrapped line, if it is
      one. */
  function Unwrap(full: string): Option<string> {
    if |full| >= |KeepOpenTail| && full[|full| - |KeepOpenTail|..] == KeepOpenTail
    then Some(full[..|full| - |KeepOpenTail|])
    else None
  }

  /** Wrapping is undone by `Unwrap`, and every line `Unwrap` accepts is
      the wrapping of what it returns. */
  lemma KeepOpenRoundTrip(cmd: string, full: string)
    ensures Unwrap(KeepOpen(cmd)) == Some(cmd)
    ensures Unwrap(full).Some? ==> KeepOpen(Unwrap(full).value) == full
  {
    var w := KeepOpen(cmd);
    assert w == cmd + KeepOpenTail;
    assert w[|w| - |KeepOpenTail|..] == KeepOpenTail;
    assert w[..|w| - |KeepOpenTail|] == cmd;
    if Unwrap(full).Some? {
      var c := Unwrap(full).value;
      assert KeepOpen(c) == c + KeepOpenTail;
      assert full == full[..|full| - |KeepOpenTail|] + full[|full| - |KeepOpenTail|..];
    }
  }

  /** `str.replace('"', '\\"')`: put a backslash in front of every double
      quote. The result is one character longer per quote, and no quote in
      it is left without a backslash in front. */
  function EscapeQuotes(s: string): (r: string)
    ensures |r| == |s| + Count(s, '"')
    ensures forall k :: 0 < k < |r| && r[k] == '"' ==> r[k - 1] == '\\'
    ensures |r| > 0 ==> r[0] != '"'
  {
    if s == [] then []
    else (if s[0] == '"' then "\\\"" else [s[0]]) + EscapeQuotes(s[1..])
  }

  /** Drops the backslash in front of each double quote. */
  function UnescapeQuotes(r: string): string {
    if r == [] then []
    else if |r| >= 2 && r[0] == '\\' && r[1] == '"' then "\"" + UnescapeQuotes(r[2..])
    else [r[0]] + UnescapeQuotes(r[1..])
  }

  /** Escaping changes nothing but the added backslashes: dropping them
      gives back the original text, whatever backslashes it held. */
  lemma {:induction false} EscapeQuotesRoundTrip(s: string)
    ensures UnescapeQuotes(EscapeQuotes(s)) == s
  {
    if s != [] {
      var r := EscapeQuotes(s);
      var tail := EscapeQuotes(s[1..]);
      EscapeQuotesRoundTrip(s[1..]);
      if s[0] == '"' {
        assert r == "\\\"" + tail;
        assert r[2..] == tail;
      } else {
        assert r == [s[0]] + tail;
        assert r[1..] == tail;
        assert |r| >= 2 ==> r[1] == tail[0] != '"';
      }
    }
  }

  /** The argument list for gnome-terminal: run the wrapped line in bash. */
  function GnomeArgv(cmd: string): seq<string> {
    ["gnome-terminal", "--", "bash", "-c", KeepOpen(cmd)]
  }

  /** The argument list for the xterm fallback: one string holding a bash
      call whose script is the escaped wrapped line in double quotes. */
  function XtermArgv(cmd: string): seq<string> {
    ["xterm", "-e", "bash -c \"" + EscapeQuotes(KeepOpen(cmd)) + "\""]
  }

  /** Inside double quotes a shell reads escaped text back as the text. */
  lemma {:induction false} ScanEscaped(t: string, rest: string, acc: string)
    requires NoBackslash(t)
    ensures Scan(EscapeQuotes(t) + rest, true, acc) == Scan(rest, true, acc + t)
  {
    if t == [] {
      assert EscapeQuotes(t) + rest == rest;
      assert acc + t == acc;
    } else {
      assert NoBackslash(t[1..]) by {
        forall k | 0 <= k < |t[1..]| ensures t[1..][k] != '\\' { assert t[1..][k] == t[k + 1]; }
      }
      ScanEscapedFirst(t, rest, acc);
      ScanEscaped(t[1..], rest, acc + [t[0]]);
      assert acc + [t[0]] + t[1..] == acc + t;
    }
  }

  /** One step of `ScanEscaped`: the first character, escaped or not, is
      read as itself. */
  lemma ScanEscapedFirst(t: string, rest: string, acc: string)
    requires t != [] && t[0] != '\\'
    ensures Scan(EscapeQuotes(t) + rest, true, acc) == Scan(EscapeQuotes(t[1..]) + rest, true, acc + [t[0]])
  {
    var head := if t[0] == '"' then "\\\"" else [t[0]];
    var s := EscapeQuotes(t) + rest;
    assert s == head + (EscapeQuotes(t[1..]) + rest);
    if t[0] == '"' {
      assert s[0] == '\\' && s[1] == '"' && QuoteEscapable(s[1]);
      assert s[2..] == EscapeQuotes(t[1..]) + rest;
    } else {
      assert s[0] == t[0] && s[1..] == EscapeQuotes(t[1..]) + rest;
    }
  }

  lemma KeepOpenNoBackslash(cmd: string)
    requires NoBackslash(cmd)
    ensures NoBackslash(KeepOpen(cmd))
  {
    var full := KeepOpen(cmd);
    assert full == cmd + KeepOpenTail;
    assert '\\' !in ClosePrompt by {
      assert '\\' !in "Process " && '\\' !in "finished. " && '\\' !in "Press ";
      assert '\\' !in "Enter " && '\\' !in "to close " && '\\' !in "this " && '\\' !in "window.";
    }
    assert NoBackslash(KeepOpenTail) by {
      forall k | 0 <= k < |KeepOpenTail| ensures KeepOpenTail[k] != '\\' {
        if 11 <= k < 11 + |ClosePrompt| { assert KeepOpenTail[k] == ClosePrompt[k - 11]; }
      }
    }
    forall k | 0 <= k < |full| ensures full[k] != '\\' {
      if k >= |cmd| { assert full[k] == KeepOpenTail[k - |cmd|]; }
    }
  }

  /** A bare word followed by a blank or the end is read as itself. */
  lemma SplitBareFirst(t: string, rest: string)
    requires BareSafe(t)
    requires rest == [] || IsBlank(rest[0])
    ensures Split(t + rest) == [t] + Split(rest)
  {
    ScanWord(Bare(t), rest);
  }

  lemma SplitBlankFirst(s: string)
    ensures Split(" " + s) == Split(s)
  {
    assert (" " + s)[1..] == s;
  }

  /** A double-quoted escaped text is read back as the text. */
  lemma SplitQuotedEscaped(t: string)
    requires NoBackslash(t)
    ensures Split("\"" + EscapeQuotes(t) + "\"") == [t]
  {
    var quoted := "\"" + EscapeQuotes(t) + "\"";
    assert quoted[0] == '"' && quoted[1..] == EscapeQuotes(t) + "\"";
    ScanEscaped(t, "\"", []);
    assert [] + t == t;
    assert "\""[1..] == [];
    assert Scan(quoted, false, []) == (t, []);
  }

  /** The xterm fallback hands bash the same script as gnome-terminal: a
      shell reading xterm's command string gets `bash`, `-c` and the
      wrapped line, for commands without backslashes. */
  lemma XtermRunsSameScript(cmd: string)
    requires NoBackslash(cmd)
    ensures Split(XtermArgv(cmd)[2]) == GnomeArgv(cmd)[2..]
  {
    var full := KeepOpen(cmd);
    KeepOpenNoBackslash(cmd);
    var quoted := "\"" + EscapeQuotes(full) + "\"";
    XtermArgShape(cmd);
    SplitBashC(quoted);
    SplitQuotedEscaped(full);
    assert GnomeArgv(cmd)[2..] == ["bash", "-c"] + [full];
  }

  lemma XtermArgShape(cmd: string)
    ensures XtermArgv(cmd)[2]
         == "bash" + (" " + ("-c" + (" " + ("\"" + EscapeQuotes(KeepOpen(cmd)) + "\""))))
  {
    var e := EscapeQuotes(KeepOpen(cmd));
    assert XtermArgv(cmd)[2] == "bash -c \"" + e + "\"";
    assert "bash -c \"" == "bash" + " " + "-c" + " " + "\"";
    Nest("bash", " ", "-c", " ", "\"", e, "\"");
  }

  lemma Nest(a: string, b: string, c: string, d: string, q: string, e: string, z: string)
    ensures (a + b + c + d + q) + e + z == a + (b + (c + (d + (q + e + z))))
  {
  }

  /** `bash -c` followed by a quoted word splits into `bash`, `-c` and
      that word's reading. */
  lemma SplitBashC(q: string)
    requires q != [] && q[0] == '"'
    ensures Split("bash" + (" " + ("-c" + (" " + q)))) == ["bash", "-c"] + Split(q)
  {
    SplitBareFirst("bash", " " + ("-c" + (" " + q)));
    SplitBlankFirst("-c" + (" " + q));
    SplitBareFirst("-c", " " + q);
    SplitBlankFirst(q);
  }
}

=== FILE: text.dfy ===
/** The pieces of Python's `str` behaviour the front-end relies on:
    `isspace`, `strip` and counting one character. */
module Text {

  /** Python's `str.isspace()` for one character: the characters that a
      bare `str.strip()` removes. */
  predicate IsSpace(c: char) {
    || ('\U{9}' <= c <= '\U{D}')
    || ('\U{1C}' <= c <= '\U{20}')
    || c == '\U{85}' || c == '\U{A0}' || c == '\U{1680}'
    || ('\U{2000}' <= c <= '\U{200A}')
    || c == '\U{2028}' || c == '\U{2029}' || c == '\U{202F}'
    || c == '\U{205F}' || c == '\U{3000}'
  }

  predicate AllSpace(s: string) {
    forall k :: 0 <= k < |s| ==> IsSpace(s[k])
  }

  /** Number of whitespace characters at the start of `s`. */
  function LeadingSpace(s: string): (n: nat)
    ensures n <= |s|
    ensures AllSpace(s[..n])
    ensures n < |s| ==> !IsSpace(s[n])
  {
    if s == [] || !IsSpace(s[0]) then 0 else 1 + LeadingSpace(s[1..])
  }

  /** Number of whitespace characters at the end of `s`. */
  function TrailingSpace(s: string): (n: nat)
    ensures n <= |s|
    ensures AllSpace(s[|s| - n..])
    ensures n < |s| ==> !IsSpace(s[|s| - 1 - n])
  {
    if s == [] || !IsSpace(s[|s| - 1]) then 0 else 1 + TrailingSpace(s[..|s| - 1])
  }

  /** `r` is `s[i..j]`, everything outside it is whitespace, and `r`
      neither starts nor ends with whitespace. */
  ghost predicate StripBounds(s: string, i: int, j: int) {
    && 0 <= i <= j <= |s|
    && AllSpace(s[..i])
    && AllSpace(s[j..])
    && (i < j ==> !IsSpace(s[i]) && !IsSpace(s[j - 1]))
  }

  ghost predicate IsStripOf(r: string, s: string) {
    exists i, j :: StripBounds(s, i, j) && r == s[i..j]
  }

  /** Python's `s.strip()`: drop leading and trailing whitespace. */
  function Strip(s: string): (r: string)
    ensures |r| <= |s|
  {
    var i := LeadingSpace(s);
    s[i..|s| - TrailingSpace(s[i..])]
  }

  /** `Strip` removes exactly the whitespace at both ends: what is left is
      a slice of `s` that neither starts nor ends with whitespace, and
      everything outside it is whitespace. */
  lemma StripSpec(s: string)
    ensures IsStripOf(Strip(s), s)
  {
    var i := LeadingSpace(s);
    var j := |s| - TrailingSpace(s[i..]);
    assert s[i..][..j - i] == s[i..j];
    assert s[i..][j - i..] == s[j..];
    assert StripBounds(s, i, j);
  }

  /** A whitespace prefix followed by a non-space is the leading run. */
  lemma {:induction false} LeadingUnique(s: string, i: nat)
    requires i < |s| && AllSpace(s[..i]) && !IsSpace(s[i])
    ensures LeadingSpace(s) == i
  {
    if i > 0 {
      assert s[..i][0] == s[0];
      var rest := s[1..][..i - 1];
      assert AllSpace(rest) by {
        forall k | 0 <= k < |rest| ensures IsSpace(rest[k]) {
          assert rest[k] == s[..i][k + 1];
        }
      }
      LeadingUnique(s[1..], i - 1);
    }
  }

  /** A whitespace suffix preceded by a non-space is the trailing run. */
  lemma {:induction false} TrailingUnique(t: string, m: nat)
    requires m < |t| && AllSpace(t[|t| - m..]) && !IsSpace(t[|t| - 1 - m])
    ensures TrailingSpace(t) == m
  {
    if m > 0 {
      assert t[|t| - m..][m - 1] == t[|t| - 1];
      var u := t[..|t| - 1];
      var tail := u[|u| - (m - 1)..];
      assert AllSpace(tail) by {
        forall k | 0 <= k < |tail| ensures IsSpace(tail[k]) {
          assert tail[k] == t[|t| - m..][k];
        }
      }
      assert u[|u| - 1 - (m - 1)] == t[|t| - 1 - m];
      TrailingUnique(u, m - 1);
    }
  }

  lemma {:induction false} LeadingAllSpace(s: string)
    requires AllSpace(s)
    ensures LeadingSpace(s) == |s|
  {
    if s != [] {
      assert AllSpace(s[1..]) by {
        forall k | 0 <= k < |s| - 1 ensures IsSpace(s[1..][k]) { assert s[1..][k] == s[k + 1]; }
      }
      LeadingAllSpace(s[1..]);
    }
  }

  lemma StripNonEmptyBounds(s: string, i: int, j: int)
    requires StripBounds(s, i, j) && i < j
    ensures s[i..j] == Strip(s)
  {
    LeadingUnique(s, i);
    var t := s[i..];
    var m := |s| - j;
    assert t[|t| - m..] == s[j..];
    assert t[|t| - 1 - m] == s[j - 1];
    TrailingUnique(t, m);
  }

  lemma AllSpaceJoin(s: string, i: int)
    requires 0 <= i <= |s| && AllSpace(s[..i]) && AllSpace(s[i..])
    ensures AllSpace(s)
  {
    forall k | 0 <= k < |s| ensures IsSpace(s[k]) {
      if k < i { assert s[k] == s[..i][k]; } else { assert s[k] == s[i..][k - i]; }
    }
  }

  lemma StripEmptyBounds(s: string, i: int)
    requires StripBounds(s, i, i)
    ensures Strip(s) == []
  {
    AllSpaceJoin(s, i);
    LeadingAllSpace(s);
    assert s[|s|..] == [];
  }

  /** Any bounds meeting the description cut out what `Strip` returns. */
  lemma StripBoundsMatch(s: string, i: int, j: int)
    requires StripBounds(s, i, j)
    ensures s[i..j] == Strip(s)
  {
    if i < j {
      StripNonEmptyBounds(s, i, j);
    } else {
      StripEmptyBounds(s, i);
    }
  }

  /** `strip` is determined by its description: there is only one string
      that is `s` with whitespace removed from both ends. */
  lemma StripUnique(s: string, r1: string, r2: string)
    requires IsStripOf(r1, s) && IsStripOf(r2, s)
    ensures r1 == r2
  {
    var i1, j1 :| StripBounds(s, i1, j1) && r1 == s[i1..j1];
    var i2, j2 :| StripBounds(s, i2, j2) && r2 == s[i2..j2];
    StripBoundsMatch(s, i1, j1);
    StripBoundsMatch(s, i2, j2);
  }

  /** `Strip` leaves nothing for a second `strip` to remove. */
  lemma StripIdempotent(s: string)
    ensures Strip(Strip(s)) == Strip(s)
  {
    var r := Strip(s);
    StripSpec(s);
    var i, j :| StripBounds(s, i, j) && r == s[i..j];
    assert StripBounds(r, 0, |r|) by {
      assert r[..0] == [] && r[|r|..] == [];
      if 0 < |r| {
        assert r[0] == s[i] && r[|r| - 1] == s[j - 1];
      }
    }
    StripBoundsMatch(r, 0, |r|);
    assert r[0..|r|] == r;
  }

  /** How many times `c` occurs in `s`. */
  function Count(s: string, c: char): (n: nat)
    ensures n <= |s|
    ensures n == 0 <==> c !in s
  {
    if s == [] then 0
    else
      assert s == [s[0]] + s[1..];
      (if s[0] == c then 1 else 0) + Count(s[1..], c)
  }
}

=== FILE: wrappers.dfy ===
/** Failure-compatible return types shared by the model. */
module Wrappers {

  /** A value that may be absent. */
  datatype Option<T> = None | Some(value: T)

  /** Either a computed value or the reason it could not be computed. */
  datatype Result<T, E> = Ok(value: T) | Err(error: E)
}
